=== FILE: README.md ===
# chronos task queues and function wrappers, in Dafny

chronos is a small TypeScript library with two parts, and this project models both.

- **Task queues.** `Queue` runs one task at a time in FIFO order. `QueueParallel` is the same queue with N slots (2 by default). `QueuePriority` runs one task at a time from three levels, `high` before `normal` before `low`, FIFO within a level.
  - All three share one scheduling core, `AQueue`. It keeps `activeCount` and `concurrency`. `_canRunProcess` is true when `activeCount < concurrency`. `_processQueue` schedules a deferred dispatch pass that starts entries while slots are free. `_runProcess` raises `activeCount`, awaits the task, settles the caller's promise, then lowers `activeCount` and schedules another pass.
  - `add` hands back a promise that settles with the task's outcome. `clear` drops waiting entries, whose promises then never settle. `size` counts the waiting entries.
- **Function wrappers** (`mixins`):
  - `debounce` postpones a function until `wait` ms after the last call.
  - `onceAtATime` rejects calls while an invocation is in flight.
  - `throttle` lets at most one call through per `limit` ms.

## How the model works

Timers, promises and the clock become explicit events and inputs. The queues are pure state machines.

- `Scheduler.State` holds:
  - the backlog: one FIFO sequence, or the three levels;
  - `activeCount`, `concurrency`, the running set and the log of started entries;
  - the settled promises, the discarded (cleared) entries and the next entry id;
  - `timers`: the number of dispatch callbacks that are scheduled but have not yet run;
  - the `console.error` lines written so far.
- Environment events:
  - `Fire` runs one scheduled dispatch pass.
  - `Complete` settles a running task with `Resolved(v)` or `Rejected(reason)`.
  - Producers call `add`, `clear` and `size`.
- `Run` replays any sequence of enabled events, so invariants are proved for every interleaving.
- The wrappers are closures with explicit state. The time of each call (`Date.now()`) and whether `func` throws are parameters. The debounce timer is an event.

The invariant `Scheduler.Valid` has four parts:

- `activeCount` equals the number of running entries.
- `activeCount` never exceeds `concurrency`, or is 0.
- Every entry admitted so far is in exactly one place: waiting, running, settled or discarded.
- An entry was started exactly when it is running or settled.

Modules:

| module | file | models |
|---|---|---|
| `Wrappers`, `Outcomes` | wrappers.dfy, outcomes.dfy | `Option`; values, rejection reasons, settlements |
| `Fifo` | fifo.dfy | the array backlog: `push` / `shift` |
| `Priority` | priority.dfy | the `{high, normal, low}` record and its selection |
| `Scheduler` | scheduler.dfy | `AQueue` (src/queue/QueueAbstract.ts) |
| `Queue` | queue.dfy | src/queue/Queue.ts |
| `QueueParallel` | queue_parallel.dfy | src/queue/QueueParallel.ts |
| `QueuePriority` | queue_priority.dfy | src/queue/QueuePriority.ts |
| `Debounce`, `OnceAtATime`, `Throttle` | debounce.dfy, once_at_a_time.dfy, throttle.dfy | src/mixins.ts |

## Model

| member | source | states |
|---|---|---|
| Fifo.Push | src/queue/Queue.ts:19 | `push` appends the entry at the tail and every earlier entry keeps its position |
| Fifo.Shift | src/queue/Queue.ts:13-15 | `shift` returns undefined exactly when the array is empty; otherwise it returns the head, and the head followed by the rest is the old array |
| Fifo.FirstInFirstOut | src/queue/Queue.ts:13-22 | entries pushed onto an empty array are shifted out in push order |
| Fifo.PushThenShift | src/queue/Queue.ts:13-22 | a push never overtakes: the head of a non-empty array is unchanged by a push |
| Priority.Parse | src/queue/QueuePriority.ts:11 | a name is accepted exactly when it is one of `high`, `normal`, `low`, and it denotes the level of that name |
| Priority.Push | src/queue/QueuePriority.ts:37 | `queues[p].push` appends to level p only; the total grows by one |
| Priority.Take | src/queue/QueuePriority.ts:13-27 | `_getQueue` returns undefined exactly when all levels are empty; otherwise the next element in high/normal/low order; only the head of one level is removed; the total drops by one |
| Priority.ClearLevel | src/queue/QueuePriority.ts:44 | `queues[p].length = 0` empties level p, keeps the others, and lowers the total by that level's length |
| Priority.TakeServesHighestLevel | src/queue/QueuePriority.ts:13-27 | strict precedence: when l is the highest non-empty level, selection takes the head of l |
| Priority.DrainIsLevelOrder | src/queue/QueuePriority.ts:13-27 | repeated selection hands out all of high, then all of normal, then all of low, each in insertion order |
| Priority.PushPlacesByLevel | src/queue/QueuePriority.ts:37 | a pushed entry is served after everything at its level and at higher levels, and before everything at lower levels |
| Scheduler.Select | src/queue/QueueAbstract.ts:12 | `_getQueue` is undefined exactly when nothing waits; otherwise it removes and returns the next entry in selection order, and the others keep their order |
| Scheduler.Init | src/queue/QueueAbstract.ts:5-6 | a new queue has `activeCount` 0, `concurrency` 1, nothing running and nothing settled, and satisfies the invariant |
| Scheduler.GetActiveCount | src/queue/QueueAbstract.ts:43-45 | under the invariant, `getActiveCount()` is the number of tasks executing, and lies between 0 and `concurrency` |
| Scheduler.EligibleIffRoom | src/queue/QueueAbstract.ts:8-10 | `_canRunProcess()` holds exactly when `activeCount < concurrency`, i.e. a slot is free, and each start uses up one slot |
| Scheduler.CanRun | src/queue/QueueAbstract.ts:8-10 | `_canRunProcess()` holds exactly when a slot is free; under the invariant, exactly when fewer tasks run than `concurrency` allows |
| Scheduler.Start | src/queue/QueueAbstract.ts:15-16 | a started entry joins the running set and the end of the start log, and `activeCount` rises with the log; the backlog, settlements, ids and timers are untouched |
| Scheduler.DispatchPass | src/queue/QueueAbstract.ts:29-41 | a dispatch pass changes only the backlog, the running set, `activeCount` and the start log: concurrency, settlements, ids and scheduled timers stay as they were |
| Scheduler.DispatchPassStarts | src/queue/QueueAbstract.ts:33-39 | a pass starts exactly min(waiting, concurrency - activeCount) entries, the first ones in selection order; `activeCount` rises by that many |
| Scheduler.DispatchPassStops | src/queue/QueueAbstract.ts:33-37 | after a pass, either `_canRunProcess()` is false or nothing is waiting; a pass with a free slot and a waiting entry starts at least one |
| Scheduler.DispatchPassRuns | src/queue/QueueAbstract.ts:14-16 | the entries a pass starts are exactly the ones added to the running set |
| Scheduler.Fire | src/queue/QueueAbstract.ts:31-40 | running one scheduled dispatch callback uses up that timer, only appends to the start log, raises `activeCount` by exactly the number of entries it starts, and leaves concurrency, settlements, discarded entries, ids and the log lines alone |
| Scheduler.Complete | src/queue/QueueAbstract.ts:18-26 | a running entry's promise settles with the task's outcome while other settlements are kept; the entry leaves the running set, `activeCount` falls with it, and one more dispatch is scheduled; the backlog and the start log are untouched |
| Scheduler.Enqueue | src/queue/QueueAbstract.ts:29-31 | admitting an entry uses up a fresh id, schedules one more dispatch, and keeps the invariant |
| Scheduler.Discard | src/queue/Queue.ts:24-26 | cleared entries become discarded without starting; running tasks, `activeCount` and settlements are untouched; the invariant holds |
| Scheduler.StartValid | src/queue/QueueAbstract.ts:14-16 | starting the selected entry when a slot is free keeps the invariant |
| Scheduler.DispatchPassValid | src/queue/QueueAbstract.ts:29-41 | a dispatch pass keeps the invariant, in particular `activeCount <= concurrency` |
| Scheduler.FireValid | src/queue/QueueAbstract.ts:31-40 | a deferred dispatch callback keeps the invariant |
| Scheduler.CompleteSettlesOnce | src/queue/QueueAbstract.ts:18-26 | a running task's promise had not settled before; afterwards it has settled with exactly the task's outcome, the task is no longer running, other settlements are kept, `activeCount` drops by one, one more dispatch is scheduled, and the invariant holds |
| Scheduler.LifecycleNetZero | src/queue/QueueAbstract.ts:14-27 | a task's run is net zero for `activeCount`: +1 at start, -1 when it settles |
| Scheduler.FailureIsolated | src/queue/QueueAbstract.ts:21-26 | a rejected task leaves the queue exactly as a resolved one would, apart from its own promise |
| Scheduler.SettlementRedispatches | src/queue/QueueAbstract.ts:23-26 | after any settlement, including a failure, the dispatch it schedules starts the next waiting entry |
| Scheduler.FireOneSlot | src/queue/QueueAbstract.ts:29-41 | with one free slot, a dispatch starts exactly the next entry in selection order |
| Scheduler.Turn | src/queue/QueueAbstract.ts:14-41 | one turn on a single slot: the next entry starts, and then settles with its own outcome; the invariant holds |
| Scheduler.Serve | src/queue/QueueAbstract.ts:14-41 | a single slot served turn by turn starts the waiting entries in selection order, one at a time, each settling with its own outcome |
| Scheduler.SettleAll | src/queue/QueueAbstract.ts:18-26 | settling distinct running entries one after another records each outcome in order, frees one slot and schedules one dispatch per entry |
| Scheduler.SettleAllValid | src/queue/QueueAbstract.ts:18-26 | settling running entries one after another keeps the invariant |
| Scheduler.RecordAppend | src/queue/QueueAbstract.ts:18-22 | settling one list of entries and then another is the same as settling their concatenation |
| Scheduler.RoundStarts | src/queue/QueueAbstract.ts:31-40 | on an idle queue with `concurrency >= 1`, a dispatch starts the first min(waiting, concurrency) entries in selection order; they are distinct, they are exactly the running set, and the invariant holds |
| Scheduler.ServeAll | src/queue/QueueAbstract.ts:14-41 | on any number of slots (at least one), serving dispatch by dispatch starts every waiting entry in selection order; each promise receives its own task's outcome, and the queue ends idle with the invariant intact |
| Scheduler.RecordGivesEachItsOwn | src/queue/QueueAbstract.ts:18-22 | recording the settlements of distinct entries gives each entry its own outcome and keeps earlier ones |
| Queue.Size | src/queue/Queue.ts:28-30 | `size()` is the number of entries selection will still hand out |
| Queue.New | src/queue/Queue.ts:7-11 | a new queue is empty, runs nothing, has one slot and satisfies both invariants |
| Queue.Add | src/queue/Queue.ts:17-22 | `add` puts a fresh entry at the tail (`size()` + 1; earlier entries keep their places) and schedules one dispatch; nothing starts synchronously; invariants kept |
| Queue.Clear | src/queue/Queue.ts:24-26 | `clear` makes `size()` 0 and discards exactly the waiting entries; running tasks, settlements, concurrency, ids, scheduled dispatches and the console are untouched |
| Queue.SizeDropsBySelected | src/queue/Queue.ts:28-30 | `size()` counts the entries not yet selected: a dispatch lowers it by exactly the number of tasks it starts |
| Queue.DispatchPassKeepsLog | src/queue/Queue.ts:13-15 | selection moves entries from the head of the backlog to the end of the start log, so the started entries followed by the waiting ones stay the same sequence |
| Queue.AddManyValid | src/queue/Queue.ts:17-22 | any number of `add` calls keep the invariant |
| Queue.AddedToUnused | src/queue/Queue.ts:17-22 | `n` calls of `add` on a new queue of any concurrency leave entries 0 to n - 1 waiting in that order, with nothing started or settled and the invariant intact |
| Queue.RunKeepsInvariants | src/queue/QueueAbstract.ts:14-41 | whatever the producers and tasks do, the invariant holds and entries start in `add` order |
| Queue.AddThenServe | src/queue/Queue.ts:13-22 | tasks run in submission order: after n calls of `add` on a queue as `Queue.New` leaves it (one slot, nothing added yet), served dispatch by dispatch, the i-th added task is the i-th to start, the i-th promise receives the i-th task's outcome, exactly the started entries have settled, and nothing waits or runs (tests/Queue.test.ts:56-79) |
| QueueParallel.New | src/queue/QueueParallel.ts:5-8 | `concurrency` is the argument, or 2 when it is left out; the queue starts empty and idle, with no entry ever added |
| QueueParallel.ConcurrencyBound | src/queue/QueueParallel.ts:5-8 | from a newly constructed queue of any concurrency, whatever happens, `getActiveCount()` is the number of running tasks and never exceeds the configured concurrency |
| QueueParallel.StartsInAddOrder | src/queue/QueueParallel.ts:3 | from a newly constructed queue with any number of slots, tasks start in the order they were added, each at most once |
| QueueParallel.AddThenServeAll | src/queue/QueueParallel.ts:3-8 | on any concurrency of at least one, after n calls of `add` on a new queue, the i-th added task is the i-th to start, the i-th promise receives the i-th task's outcome, exactly the started entries have settled, and nothing waits or runs (tests/QueueParallel.test.ts:23-45) |
| QueueParallel.NoSlotsNothingStarts | src/queue/QueueAbstract.ts:8-10 | with a concurrency of 0 or less (`new QueueParallel(0)`, say), `_canRunProcess()` is always false and nothing ever starts |
| QueueParallel.ThreeOnTwoSlots | tests/QueueParallel.test.ts:10-21 | three tasks on two slots: all three start, in order, and each promise gets its own task's outcome |
| QueueParallel.TwoStart | src/queue/QueueAbstract.ts:33-39 | on two free slots the first dispatch starts the first two entries and leaves the third waiting |
| QueueParallel.LastStarts | src/queue/QueueAbstract.ts:23-26 | once a slot is freed, the dispatch it scheduled starts the remaining entry |
| QueuePriority.New | src/queue/QueuePriority.ts:6-10 | a new priority queue has three empty levels, one slot, nothing running and nothing logged |
| QueuePriority.Resolve | src/queue/QueuePriority.ts:29-35 | no level given means `normal`; a valid name is its level; any other name means `normal` plus the line `Invalid priority: <name>` |
| QueuePriority.Add | src/queue/QueuePriority.ts:29-40 | `add` puts a fresh entry at the tail of its resolved level only, logs only for an invalid name, schedules one dispatch, and keeps the invariant |
| QueuePriority.Clear | src/queue/QueuePriority.ts:42-52 | a level name empties that level alone and discards its entries; no argument (or the empty string) empties all three; `None` marks any other non-empty name, which is not a level (see Left out) |
| QueuePriority.Size | src/queue/QueuePriority.ts:54-60 | a level name gives that level's length; no argument gives the total waiting; `None` marks any other non-empty name, which is not a level (see Left out) |
| QueuePriority.SizeIsSumOfLevels | src/queue/QueuePriority.ts:54-60 | `size()` equals `size('high') + size('normal') + size('low')` |
| QueuePriority.AddRaisesOwnSize | src/queue/QueuePriority.ts:37 | `add(t, p)` raises `size(p)` and `size()` by one and leaves the other levels' sizes alone |
| QueuePriority.ClearEmptiesOnlyItsLevel | src/queue/QueuePriority.ts:42-52 | `clear(p)` sets `size(p)` to 0 and keeps the other levels' sizes; `clear()` sets `size()` to 0 |
| QueuePriority.SelectServesHighestLevel | src/queue/QueuePriority.ts:13-27 | the next task is the head of the highest non-empty level |
| QueuePriority.DispatchPassKeepsLevelsInOrder | src/queue/QueuePriority.ts:13-27 | selection only removes heads of levels, so each level still waits in `add` order |
| QueuePriority.RunKeepsInvariants | src/queue/QueuePriority.ts:29-60 | whatever the producers and tasks do, the invariant holds and each level stays in `add` order |
| QueuePriority.Burst | tests/QueuePriority.test.ts:11-39 | `low, low, high, normal, high` added before any dispatch leave the levels as [2,4], [3], [0,1], served in the order 2,4,3,0,1 |
| QueuePriority.BurstRunsByPriority | tests/QueuePriority.test.ts:11-39 | that burst runs the third, fifth, fourth, first and second task, and each promise gets its own task's outcome |
| QueuePriority.InvalidPriorityFallsBackToNormal | tests/QueuePriority.test.ts:41-49 | `add(task, 'urgent')` logs exactly `Invalid priority: urgent`, files the task under `normal`, and the task still runs |
| QueuePriority.ClearAndSizeByLevel | tests/QueuePriority.test.ts:51-78 | one task on each level: `size()` is 3; after `clear('low')` it is 2, with `size('low')` 0; after `clear()` it is 0 |
| QueuePriority.SizePerLevel | tests/QueuePriority.test.ts:80-92 | after adding to `high`, `normal` and `normal`, `size('high')` is 1, `size('normal')` 2, `size('low')` 0 and `size()` 3 |
| Throttle.New | src/mixins.ts:81-85 | a new wrapper has `lastCall` 0, has executed nothing, and satisfies the wrapper's invariant |
| Throttle.Admits | src/mixins.ts:85-88 | before any execution a call goes through exactly when `now >= limit`, since `lastCall` starts at 0 rather than at the creation time; afterwards, exactly when it comes at least `limit` after the latest execution |
| Throttle.Call | src/mixins.ts:86-95 | a call goes through exactly when `now - lastCall >= limit`; then `lastCall` becomes now, `func` runs with the arguments, and a throw is logged once with its label; otherwise nothing changes |
| Throttle.CallAllKeepsConsistent | src/mixins.ts:85-95 | over any sequence of calls, executions stay at least `limit` apart and `lastCall` is the latest one's time |
| Throttle.SpacedSpan | src/mixins.ts:88-89 | n executions spread over at least (n - 1) * limit ms |
| Throttle.SpacedSlice | src/mixins.ts:88-89 | any run of consecutive executions is itself spaced at least `limit` apart |
| Throttle.AtMostOnePerInterval | src/mixins.ts:88-89 | in any wrapper state (every run from `New` gives one), with a positive `limit`, consecutive executions whose first and last lie at most d ms apart number at most d / limit + 1 |
| Throttle.TwoOfThreeGoThrough | tests/mixins.test.ts:77-90 | two calls at the same instant and one 100 ms later run `func` twice, with the first and the last arguments |
| Throttle.ThrowIsLoggedAndSwallowed | tests/mixins.test.ts:92-102 | a throwing `func` is logged as `Throttled function error:` with the error, and `lastCall` still moves |
| OnceAtATime.New | src/mixins.ts:53-57 | the rejection is `Error('Function is already running')` when the argument is missing or an explicit `undefined`, as with any JavaScript default parameter; otherwise it is the given value; the guard starts free |
| OnceAtATime.Call | src/mixins.ts:59-66 | a call is refused with `rejectOnce` exactly when an invocation is in flight, and then nothing changes; otherwise the guard turns busy and `func` runs |
| OnceAtATime.Finish | src/mixins.ts:65-69 | the caller's promise settles exactly as `func`'s did, and the guard is free again after success or failure |
| OnceAtATime.RunKeepsOneInFlight | src/mixins.ts:57-69 | whatever the callers and `func` do, at most one invocation is outstanding, and `func` runs no more often than the wrapper is called |
| OnceAtATime.SecondCallRejected | tests/mixins.test.ts:45-58 | a second call during the first is rejected with the default error and does not call `func`; the first caller receives `func`'s result |
| OnceAtATime.FailureFreesGuard | src/mixins.ts:67-69 | after a failed invocation the next call goes through |
| OnceAtATime.CustomRejection | tests/mixins.test.ts:60-73 | a busy guard refuses with the custom value it was given; an explicit `undefined` leaves the default error in force |
| Debounce.New | src/mixins.ts:14-20 | `onlyOne` defaults to true; there is no timer and no resolver |
| Debounce.Call | src/mixins.ts:22-43 | a call replaces any pending timer with one due `wait` later that carries its arguments; with `onlyOne` its resolver takes slot 0 and supersedes the one there, otherwise it is appended |
| Debounce.Fire | src/mixins.ts:33-35 | the timer callback clears the timer and runs `func` once with the captured arguments; a synchronous throw leaves no result pending |
| Debounce.ResolveAll | src/mixins.ts:37 | every listed caller receives v; other earlier deliveries are kept |
| Debounce.Deliver | src/mixins.ts:36-39 | a resolved result goes to every resolver waiting now, and the list is emptied |
| Debounce.Drop | src/mixins.ts:36 | a rejected result resolves nobody and leaves the resolvers waiting |
| Debounce.RunKeepsConsistent | src/mixins.ts:22-43 | whatever the callers, the clock and `func` do (including a call that arrives after a late timer's due time and cancels it): each promise is resolved at most once and never changes afterwards; a superseded promise never resolves; with `onlyOne` at most one resolver waits |
| Debounce.CallsLeaveOneTimer | src/mixins.ts:25-35 | back-to-back calls run `func` not at all; afterwards exactly one execution is pending, due `wait` after the last call, with its arguments; without `onlyOne` every caller waits, in call order, and with it only the last one does |
| Debounce.OrderedCallsAreAdmissible | src/mixins.ts:22-43 | calls in time order, the first no earlier than the clock, form a valid event sequence, and replaying them as events reaches the same state as making them back to back |
| Debounce.QuietGap | src/mixins.ts:31-35 | when the next call comes before the pending timer is due, that timer cannot go off in between, whatever results settle: it would move the clock past the next call; the pending execution, the executions so far and the callers stay as they are |
| Debounce.NoFireBetweenCloseCalls | src/mixins.ts:31-35 | in any valid run, whatever settles between two calls less than `wait` apart, the timer the first call set does not go off before the second call |
| Debounce.BurstLeavesOneTimer | src/mixins.ts:31-42 | in any valid run where each call comes less than `wait` after the one before, whatever results settle between the calls, no timer goes off during the burst, so `func` does not run; afterwards exactly one execution is pending, due `wait` after the last call, with its arguments, and every call has been counted |
| Debounce.LatestCallerGetsTheResult | tests/mixins.test.ts:5-23 | calls at 0, 20 and 60 ms run `func` once, with the last arguments, at 160 ms; only the latest caller receives the result |
| Debounce.EveryCallerGetsTheResult | tests/mixins.test.ts:25-41 | without `onlyOne`, two calls run `func` once and both callers receive the same result |

## Left out

- Real timers, `Date.now()`, the event loop and microtask ordering. They become explicit events and inputs: `timers` counts scheduled dispatch callbacks, and `Fire` runs one of them. The 0 ms delay and the clamping of `setTimeout` are not modelled.
- Task bodies and `func` are not modelled. Only their outcome (a value, a rejection, a synchronous throw) enters the model, as an event or a parameter.
- A task that throws synchronously inside the dispatch loop. The source then settles it, and frees its slot, before the loop's next check. The model always settles a task through a separate `Complete` event after the pass. A single source pass can therefore start more entries than `Scheduler.DispatchPassStarts` counts when tasks throw synchronously. That interleaving is not covered by the model.
- Scheduler.DispatchPassStarts: because of the point above, this counts only passes in which no task settles during the pass.
- Non-numeric, fractional and NaN `concurrency` values are not modelled; `concurrency` is an integer. Negative values and 0 are kept, and then nothing runs.
- Throttle: `limit` is an integer. With a NaN `limit` the source's comparison is false on every call, so `func` never runs; a fractional `limit`, compared with the whole milliseconds of `Date.now()`, acts as its ceiling. Neither is modelled.
- Debounce: `wait` is an integer, and the timer is due exactly `wait` after the call. The host's `setTimeout` clamps a NaN, negative, zero or very large delay and rounds a fractional one, each in its own way; none of that is modelled, so for such values the model's due time differs from the host's.
- Non-string priority values (a number, an object) are not modelled. A missing argument is `None`; the empty string is falsy for `clear` and `size`.
- QueuePriority.Size: names that the `queues` record inherits from `Object.prototype` (`constructor`, `toString`, `__proto__` and the like) are not modelled. For them the source does not throw: it reads that property's `length` (`size('constructor')` gives 1, `size('toString')` gives 0). The model returns `None` for every non-empty name that is not a level, and so does not give those numbers.
- QueuePriority.Clear: inherited names are not modelled either. `clear('__proto__')` writes `length = 0` onto `Object.prototype` and returns normally, without a TypeError. For an inherited method such as `constructor`, the write hits a function's read-only `length`, which throws in the class's strict-mode code. The model returns `None` for all of these and keeps the queue as it was. The three levels are indeed untouched in the source, but the write to the shared prototype is not modelled.
- QueuePriority.Clear and QueuePriority.Size: for other unknown non-empty names the source indexes `undefined` and throws a TypeError. The model returns `None` and does not model the exception's contents.
- The bundled dist/esm/index.js checks `add`'s priority with `in this.queues` instead of `includes` (dist/esm/index.js:174). There, an inherited name such as `toString` passes the check and the push then fails. The model follows src/queue/QueuePriority.ts, where such a name is invalid for `add` and falls back to `normal` with a logged line.
- Debounce: a result that rejects (a rejected promise from `func`) is an event that resolves nobody, as in the source. The unhandled rejection itself is not modelled.
- Throttle: when `func` returns a promise that later rejects, the source does not catch it. This is not modelled.
- Console output is modelled only as the list of lines written. Formatting of the logged error object is not modelled.
- The interface and type declaration files (src/interface/) are not part of this model.

=== FILE: debounce.dfy ===
/** `debounce(func, wait, onlyOne)`: a wrapper that postpones `func` until `wait` milliseconds have
    passed without a new call, then runs it once with the latest call's arguments and hands the
    result to the waiting callers: only the latest one (`onlyOne`, the default) or every one.
    The clock, the timer firing and the settling of `func`'s result are explicit events. */
module Debounce {
  import opened Wrappers
  import opened Outcomes
  import opened Numbering

  /** One call of the wrapped function, and the promise it received. */
  type CallerId = nat

  /** The one deferred execution `setTimeout` holds: when it is due and the arguments it captured. */
  datatype Timer = Timer(due: int, args: Args)

  /** The wrapper's closure, with what it did so far. */
  datatype Debouncer = Debouncer(
    wait: int,
    onlyOne: bool,
    clock: int,                          // the time of the latest event
    timer: Option<Timer>,                // `timeout`: at most one pending execution
    resolvers: seq<CallerId>,            // `resolves`: the callers waiting for the next result
    nextCaller: CallerId,
    invocations: seq<Args>,              // calls of `func`, in order
    inFlight: nat,                       // results of `func` whose settlement has not arrived yet
    delivered: map<CallerId, Value>,     // callers whose promise resolved, with the value
    superseded: set<CallerId>)           // callers whose resolver was overwritten; never settle

  /** `debounce(func, wait, onlyOne?)`. */
  function New(wait: int, onlyOne: Option<bool>): (d: Debouncer)
    ensures d.wait == wait && d.onlyOne == onlyOne.GetOr(true)
    ensures d.timer.None? && d.resolvers == [] && d.invocations == [] && d.inFlight == 0
    ensures Consistent(d)
  {
    Debouncer(wait, onlyOne.GetOr(true), 0, None, [], 0, [], 0, map[], {})
  }

  /** One call at time `now`. Its resolver takes slot 0 (`onlyOne`, overwriting the one there) or
      joins the end of the list; the pending execution, if any, is cancelled and a new one is due
      `wait` after `now`, with this call's arguments. `func` does not run. */
  function Call(d: Debouncer, now: int, args: Args): (r: (Debouncer, CallerId))
    ensures r.1 == d.nextCaller && r.0.nextCaller == d.nextCaller + 1
    ensures r.0.timer == Some(Timer(now + d.wait, args))
    ensures d.onlyOne && d.resolvers == [] ==> r.0.resolvers == [r.1] && r.0.superseded == d.superseded
    ensures d.onlyOne && d.resolvers != [] ==>
              r.0.resolvers == [r.1] + d.resolvers[1..] && r.0.superseded == d.superseded + {d.resolvers[0]}
    ensures !d.onlyOne ==> r.0.resolvers == d.resolvers + [r.1] && r.0.superseded == d.superseded
    ensures r.0.invocations == d.invocations && r.0.inFlight == d.inFlight && r.0.delivered == d.delivered
    ensures r.0.wait == d.wait && r.0.onlyOne == d.onlyOne && r.0.clock == now
  {
    var c := d.nextCaller;
    var d' := d.(clock := now, nextCaller := c + 1, timer := Some(Timer(now + d.wait, args)));
    if d.onlyOne then
      if |d.resolvers| == 0 then (d'.(resolvers := [c]), c)
      else (d'.(resolvers := d.resolvers[0 := c], superseded := d.superseded + {d.resolvers[0]}), c)
    else
      (d'.(resolvers := d.resolvers + [c]), c)
  }

  /** The pending timer goes off: `timeout` is cleared and `func` runs with the captured
      arguments. If it throws, nothing else happens; otherwise its result is awaited. */
  function Fire(d: Debouncer, throws: bool): (r: Debouncer)
    requires d.timer.Some?
    ensures r.timer.None? && r.invocations == d.invocations + [d.timer.value.args]
    ensures r.inFlight == if throws then d.inFlight else d.inFlight + 1
    ensures r.clock >= d.clock && r.clock >= d.timer.value.due
    ensures r.resolvers == d.resolvers && r.delivered == d.delivered && r.superseded == d.superseded
    ensures r.nextCaller == d.nextCaller && r.wait == d.wait && r.onlyOne == d.onlyOne
  {
    var t := d.timer.value;
    d.(clock := if t.due < d.clock then d.clock else t.due,
       timer := None,
       invocations := d.invocations + [t.args],
       inFlight := if throws then d.inFlight else d.inFlight + 1)
  }

  /** `map` with every caller of `cs` resolved to `v`; earlier entries of other callers kept. */
  function ResolveAll(m: map<CallerId, Value>, cs: seq<CallerId>, v: Value): (r: map<CallerId, Value>)
    ensures r.Keys == m.Keys + (set c | c in cs)
    ensures forall c :: c in cs ==> r[c] == v
    ensures forall c :: c in m && c !in cs ==> r[c] == m[c]
  {
    map c | c in m.Keys + (set c | c in cs) :: if c in cs then v else m[c]
  }

  /** A result of `func` resolves with `v`: every resolver waiting now receives the same value, and
      the list is emptied. */
  function Deliver(d: Debouncer, v: Value): (r: Debouncer)
    requires d.inFlight > 0
    ensures r.resolvers == [] && r.inFlight == d.inFlight - 1
    ensures forall c :: c in d.resolvers ==> c in r.delivered && r.delivered[c] == v
    ensures forall c :: c in d.delivered && c !in d.resolvers ==> c in r.delivered && r.delivered[c] == d.delivered[c]
    ensures r.delivered.Keys == d.delivered.Keys + (set c | c in d.resolvers)
    ensures r.timer == d.timer && r.invocations == d.invocations && r.superseded == d.superseded
    ensures r.nextCaller == d.nextCaller && r.wait == d.wait && r.onlyOne == d.onlyOne && r.clock == d.clock
  {
    d.(resolvers := [], inFlight := d.inFlight - 1, delivered := ResolveAll(d.delivered, d.resolvers, v))
  }

  /** A result of `func` rejects: nobody is told, the resolvers keep waiting. */
  function Drop(d: Debouncer): (r: Debouncer)
    requires d.inFlight > 0
    ensures r.inFlight == d.inFlight - 1
    ensures r.resolvers == d.resolvers && r.delivered == d.delivered && r.superseded == d.superseded
    ensures r.timer == d.timer && r.invocations == d.invocations && r.nextCaller == d.nextCaller
    ensures r.wait == d.wait && r.onlyOne == d.onlyOne && r.clock == d.clock
  {
    d.(inFlight := d.inFlight - 1)
  }

  /** How many places caller `c`'s promise is in: waiting in the list (with multiplicity),
      resolved, or superseded. */
  function Places(d: Debouncer, c: CallerId): nat {
    multiset(d.resolvers)[c] + (if c in d.delivered then 1 else 0) + (if c in d.superseded then 1 else 0)
  }

  /** Every caller so far is in exactly one place, so each promise is resolved at most once; with
      `onlyOne` the list never holds more than one resolver, and without it nobody is superseded. */
  ghost predicate Consistent(d: Debouncer) {
    && (forall c: CallerId :: Places(d, c) == (if c < d.nextCaller then 1 else 0))
    && (d.onlyOne ==> |d.resolvers| <= 1)
    && (!d.onlyOne ==> d.superseded == {})
  }

  lemma CallKeepsConsistent(d: Debouncer, now: int, args: Args)
    requires Consistent(d)
    ensures Consistent(Call(d, now, args).0)
  {
    if d.onlyOne && d.resolvers != [] {
      CallOverwritesSlot(d, now, args);
    } else {
      CallAddsResolver(d, now, args);
    }
  }

  /** With `onlyOne`, a call's resolver replaces the waiting one, which is superseded. */
  lemma CallOverwritesSlot(d: Debouncer, now: int, args: Args)
    requires Consistent(d) && d.onlyOne && d.resolvers != []
    ensures Consistent(Call(d, now, args).0)
  {
    var (r, c) := Call(d, now, args);
    assert Places(d, c) == 0;
    assert d.resolvers == [d.resolvers[0]] && r.resolvers == [c];
    assert Places(d, d.resolvers[0]) == 1;
    forall x: CallerId ensures Places(r, x) == Places(d, x) + (if x == c then 1 else 0) {
    }
  }

  /** Otherwise a call's resolver joins the list and nobody is superseded. */
  lemma CallAddsResolver(d: Debouncer, now: int, args: Args)
    requires Consistent(d) && !(d.onlyOne && d.resolvers != [])
    ensures Consistent(Call(d, now, args).0)
  {
    var (r, c) := Call(d, now, args);
    assert Places(d, c) == 0;
    forall x: CallerId ensures Places(r, x) == Places(d, x) + (if x == c then 1 else 0) {
    }
  }

  lemma FireKeepsConsistent(d: Debouncer, throws: bool)
    requires Consistent(d) && d.timer.Some?
    ensures Consistent(Fire(d, throws))
  {
    var r := Fire(d, throws);
    forall x: CallerId ensures Places(r, x) == Places(d, x) {
    }
  }

  lemma DeliverKeepsConsistent(d: Debouncer, v: Value)
    requires Consistent(d) && d.inFlight > 0
    ensures Consistent(Deliver(d, v))
  {
    var r := Deliver(d, v);
    forall x: CallerId ensures Places(r, x) == Places(d, x) {
      if x in d.resolvers {
        assert multiset(d.resolvers)[x] >= 1;
        assert Places(d, x) == 1;
      } else {
        assert multiset(d.resolvers)[x] == 0;
      }
    }
  }

  lemma DropKeepsConsistent(d: Debouncer)
    requires Consistent(d) && d.inFlight > 0
    ensures Consistent(Drop(d))
  {
    var r := Drop(d);
    forall x: CallerId ensures Places(r, x) == Places(d, x) {
    }
  }

  /** What the environment does to the wrapper. */
  datatype Event =
    | CallAt(now: int, args: Args)   // a call at time `now`
    | TimerFires(throws: bool)       // the pending `setTimeout` goes off
    | Resolves(v: Value)             // a result of `func` resolves
    | Rejects                        // a result of `func` rejects

  /** Time does not go backwards. Timers may fire late, so a call can come after the pending
      timer's due time while that timer is still pending; the call then cancels it. */
  predicate Enabled(d: Debouncer, e: Event) {
    match e
    case CallAt(now, _) => now >= d.clock
    case TimerFires(_) => d.timer.Some?
    case _ => d.inFlight > 0
  }

  function Step(d: Debouncer, e: Event): (r: Debouncer)
    requires Enabled(d, e)
    ensures r.wait == d.wait && r.onlyOne == d.onlyOne && r.superseded >= d.superseded
  {
    match e
    case CallAt(now, args) => Call(d, now, args).0
    case TimerFires(throws) => Fire(d, throws)
    case Resolves(v) => Deliver(d, v)
    case Rejects => Drop(d)
  }

  predicate Admissible(d: Debouncer, es: seq<Event>)
    decreases |es|
  {
    |es| == 0 || (Enabled(d, es[0]) && Admissible(Step(d, es[0]), es[1..]))
  }

  function Run(d: Debouncer, es: seq<Event>): (r: Debouncer)
    requires Admissible(d, es)
    decreases |es|
  {
    if |es| == 0 then d else Run(Step(d, es[0]), es[1..])
  }

  lemma StepKeepsConsistent(d: Debouncer, e: Event)
    requires Consistent(d) && Enabled(d, e)
    ensures Consistent(Step(d, e))
  {
    match e
    case CallAt(now, args) => CallKeepsConsistent(d, now, args);
    case TimerFires(throws) => FireKeepsConsistent(d, throws);
    case Resolves(v) => DeliverKeepsConsistent(d, v);
    case Rejects => DropKeepsConsistent(d);
  }

  /** Whatever the callers, the clock and `func` do: each promise is resolved at most once and a
      resolved one keeps its value, with `onlyOne` at most one resolver waits, and a superseded
      caller is never resolved. */
  lemma {:induction false} RunKeepsConsistent(d: Debouncer, es: seq<Event>)
    requires Consistent(d) && Admissible(d, es)
    ensures Consistent(Run(d, es))
    ensures forall c :: c in d.delivered ==> c in Run(d, es).delivered && Run(d, es).delivered[c] == d.delivered[c]
    ensures forall c :: c in d.superseded ==> c in Run(d, es).superseded && c !in Run(d, es).delivered
    decreases |es|
  {
    if |es| > 0 {
      StepKeepsConsistent(d, es[0]);
      var d' := Step(d, es[0]);
      forall c | c in d.delivered ensures c in d'.delivered && d'.delivered[c] == d.delivered[c] {
        assert Places(d, c) == 1;
        assert multiset(d.resolvers)[c] == 0;
      }
      RunKeepsConsistent(d', es[1..]);
      assert Run(d, es) == Run(d', es[1..]);
    }
    forall c | c in d.superseded ensures c !in Run(d, es).delivered {
      assert Places(Run(d, es), c) <= 1;
    }
  }

  /** Calls `(time, arguments)` made one right after another, with no other event in between. */
  function CallAll(d: Debouncer, calls: seq<(int, Args)>): (r: Debouncer)
    decreases |calls|
  {
    if |calls| == 0 then d else CallAll(Call(d, calls[0].0, calls[0].1).0, calls[1..])
  }

  /** Each call comes no earlier than the one before. */
  predicate InTimeOrder(calls: seq<(int, Args)>) {
    forall i :: 0 < i < |calls| ==> calls[i - 1].0 <= calls[i].0
  }

  /** Each call comes less than `wait` after the one before, so before that one's timer is due. */
  predicate Burst(calls: seq<(int, Args)>, wait: int) {
    forall i :: 0 < i < |calls| ==> calls[i].0 < calls[i - 1].0 + wait
  }

  /** Back-to-back calls run `func` not at all: afterwards exactly one execution is pending, due
      `wait` after the last call and with its arguments. Without `onlyOne` every caller waits for
      the result, in order; with it only the last one does. */
  lemma {:induction false} CallsLeaveOneTimer(d: Debouncer, calls: seq<(int, Args)>)
    requires |calls| > 0
    ensures var r := CallAll(d, calls);
      && r.timer == Some(Timer(calls[|calls| - 1].0 + d.wait, calls[|calls| - 1].1))
      && r.invocations == d.invocations && r.inFlight == d.inFlight
      && r.nextCaller == d.nextCaller + |calls|
      && (!d.onlyOne ==> r.resolvers == d.resolvers + Consecutive(d.nextCaller, |calls|))
      && (d.onlyOne ==> r.resolvers == [r.nextCaller - 1] + (if d.resolvers == [] then [] else d.resolvers[1..]))
      && r.wait == d.wait && r.onlyOne == d.onlyOne
    decreases |calls|
  {
    var d1 := Call(d, calls[0].0, calls[0].1).0;
    if |calls| > 1 {
      CallsLeaveOneTimer(d1, calls[1..]);
      assert calls[1..][|calls[1..]| - 1] == calls[|calls| - 1];
      AppendConsecutive(d.resolvers, d.nextCaller, |calls|);
    } else {
      assert CallAll(d1, calls[1..]) == d1;
    }
  }

  lemma OrderTail(calls: seq<(int, Args)>)
    requires |calls| > 0 && InTimeOrder(calls)
    ensures InTimeOrder(calls[1..])
  {
    forall i | 0 < i < |calls[1..]| ensures calls[1..][i - 1].0 <= calls[1..][i].0 {
      assert calls[1..][i] == calls[i + 1] && calls[1..][i - 1] == calls[i];
    }
  }

  lemma BurstTail(calls: seq<(int, Args)>, wait: int)
    requires |calls| > 0 && Burst(calls, wait)
    ensures Burst(calls[1..], wait)
  {
    forall i | 0 < i < |calls[1..]| ensures calls[1..][i].0 < calls[1..][i - 1].0 + wait {
      assert calls[1..][i] == calls[i + 1] && calls[1..][i - 1] == calls[i];
    }
  }

  /** Calls in time order, replayed as events, are admissible as long as the first comes no
      earlier than the clock, and they reach the same state as making them back to back. */
  lemma {:induction false} OrderedCallsAreAdmissible(d: Debouncer, calls: seq<(int, Args)>)
    requires InTimeOrder(calls)
    requires |calls| > 0 ==> calls[0].0 >= d.clock
    ensures Admissible(d, CallEvents(calls)) && Run(d, CallEvents(calls)) == CallAll(d, calls)
    decreases |calls|
  {
    if |calls| > 0 {
      var d1 := Call(d, calls[0].0, calls[0].1).0;
      assert CallEvents(calls)[1..] == CallEvents(calls[1..]);
      OrderTail(calls);
      if |calls| > 1 {
        assert calls[1] == calls[1..][0];
      }
      OrderedCallsAreAdmissible(d1, calls[1..]);
    }
  }

  /** Running `x` and then `y` is running `x + y`. */
  lemma {:induction false} RunAppend(d: Debouncer, x: seq<Event>, y: seq<Event>)
    ensures Admissible(d, x + y) <==> Admissible(d, x) && Admissible(Run(d, x), y)
    ensures Admissible(d, x + y) ==> Run(d, x + y) == Run(Run(d, x), y)
    decreases |x|
  {
    if |x| == 0 {
      assert x + y == y;
    } else {
      assert (x + y)[0] == x[0] && (x + y)[1..] == x[1..] + y;
      if Enabled(d, x[0]) {
        RunAppend(Step(d, x[0]), x[1..], y);
      }
    }
  }

  /** No call among `es`: only timers going off and results settling. */
  predicate NoCalls(es: seq<Event>) {
    forall i :: 0 <= i < |es| ==> !es[i].CallAt?
  }

  lemma NoCallsTail(es: seq<Event>)
    requires |es| > 0 && NoCalls(es)
    ensures NoCalls(es[1..])
  {
    forall i | 0 <= i < |es[1..]| ensures !es[1..][i].CallAt? {
      assert es[1..][i] == es[i + 1];
    }
  }

  /** Without calls the clock only moves forward. */
  lemma {:induction false} GapKeepsClock(d: Debouncer, gap: seq<Event>)
    requires NoCalls(gap) && Admissible(d, gap)
    ensures Run(d, gap).clock >= d.clock
    decreases |gap|
  {
    if |gap| > 0 {
      NoCallsTail(gap);
      GapKeepsClock(Step(d, gap[0]), gap[1..]);
    }
  }

  /** Between a call and the next one, which comes before the pending timer is due, that timer
      cannot go off: going off would move the clock past the next call. So the pending execution,
      the executions so far and the callers stay as they are. */
  lemma {:induction false} QuietGap(d: Debouncer, gap: seq<Event>, next: int)
    requires NoCalls(gap) && Admissible(d, gap) && Run(d, gap).clock <= next
    requires d.timer.Some? && next < d.timer.value.due
    ensures forall i :: 0 <= i < |gap| ==> !gap[i].TimerFires?
    ensures var r := Run(d, gap);
      r.timer == d.timer && r.invocations == d.invocations && r.nextCaller == d.nextCaller && r.wait == d.wait
    decreases |gap|
  {
    if |gap| > 0 {
      var d' := Step(d, gap[0]);
      NoCallsTail(gap);
      if gap[0].TimerFires? {
        GapKeepsClock(d', gap[1..]);
        assert false;
      }
      QuietGap(d', gap[1..], next);
      forall i | 0 < i < |gap| ensures !gap[i].TimerFires? {
        assert gap[i] == gap[1..][i - 1];
      }
    }
  }

  /** Whatever settles between two calls less than `wait` apart, the timer the first one set does
      not go off before the second one. */
  lemma NoFireBetweenCloseCalls(d: Debouncer, t0: int, a: Args, gap: seq<Event>, t1: int, b: Args)
    requires NoCalls(gap) && t1 < t0 + d.wait
    requires Admissible(d, [CallAt(t0, a)] + gap + [CallAt(t1, b)])
    ensures forall i :: 0 <= i < |gap| ==> !gap[i].TimerFires?
  {
    var first := [CallAt(t0, a)];
    RunAppend(d, first + gap, [CallAt(t1, b)]);
    RunAppend(d, first, gap);
    assert Run(d, first) == Call(d, t0, a).0 by {
      assert first[1..] == [];
    }
    QuietGap(Call(d, t0, a).0, gap, t1);
  }

  /** The run a burst makes: the calls in order, with the events of `gaps[i]` between call `i` and
      call `i + 1`. */
  function Interleave(calls: seq<(int, Args)>, gaps: seq<seq<Event>>): (es: seq<Event>)
    requires |calls| > 0 && |gaps| == |calls| - 1
    ensures |es| >= |calls| && es[0] == CallAt(calls[0].0, calls[0].1)
    decreases |calls|
  {
    var first := CallAt(calls[0].0, calls[0].1);
    if |calls| == 1 then [first] else [first] + gaps[0] + Interleave(calls[1..], gaps[1..])
  }

  /** Debouncing. In any admissible run where each call comes less than `wait` after the one
      before, whatever results settle in between, no timer goes off between two calls, so `func`
      does not run while the burst lasts; afterwards exactly one execution is pending, due `wait`
      after the last call and with its arguments. */
  lemma {:induction false} BurstLeavesOneTimer(d: Debouncer, calls: seq<(int, Args)>, gaps: seq<seq<Event>>)
    requires |calls| > 0 && |gaps| == |calls| - 1 && Burst(calls, d.wait)
    requires forall i :: 0 <= i < |gaps| ==> NoCalls(gaps[i])
    requires Admissible(d, Interleave(calls, gaps))
    ensures forall i, j :: 0 <= i < |gaps| && 0 <= j < |gaps[i]| ==> !gaps[i][j].TimerFires?
    ensures var r := Run(d, Interleave(calls, gaps));
      && r.timer == Some(Timer(calls[|calls| - 1].0 + d.wait, calls[|calls| - 1].1))
      && r.invocations == d.invocations && r.nextCaller == d.nextCaller + |calls| && r.wait == d.wait
    decreases |calls|
  {
    var first := [CallAt(calls[0].0, calls[0].1)];
    var d1 := Call(d, calls[0].0, calls[0].1).0;
    if |calls| == 1 {
      assert Interleave(calls, gaps) == first;
      assert Run(d, first) == d1 by {
        assert first[1..] == [];
      }
    } else {
      var rest := Interleave(calls[1..], gaps[1..]);
      assert Interleave(calls, gaps) == first + (gaps[0] + rest);
      RunAppend(d, first, gaps[0] + rest);
      assert Run(d, first) == d1 by {
        assert first[1..] == [];
      }
      RunAppend(d1, gaps[0], rest);
      QuietGap(d1, gaps[0], calls[1].0);
      var d2 := Run(d1, gaps[0]);
      BurstTail(calls, d.wait);
      forall i | 0 <= i < |gaps[1..]| ensures NoCalls(gaps[1..][i]) {
        assert gaps[1..][i] == gaps[i + 1];
      }
      BurstLeavesOneTimer(d2, calls[1..], gaps[1..]);
      assert calls[1..][|calls[1..]| - 1] == calls[|calls| - 1];
      forall i, j | 0 <= i < |gaps| && 0 <= j < |gaps[i]| ensures !gaps[i][j].TimerFires? {
        if i > 0 {
          assert gaps[i] == gaps[1..][i - 1];
        }
      }
    }
  }

  /** The calls as events. */
  function CallEvents(calls: seq<(int, Args)>): (es: seq<Event>)
    ensures |es| == |calls| && forall i :: 0 <= i < |calls| ==> es[i] == CallAt(calls[i].0, calls[i].1)
  {
    seq(|calls|, i requires 0 <= i < |calls| => CallAt(calls[i].0, calls[i].1))
  }

  /** The first debounce test: calls with `a` at 0, `a` at 20 and `c` at 60 on a 100 ms wrapper
      run `func` once, with `c`, and the latest caller receives `c`; the two earlier callers were
      superseded and never resolve. */
  lemma LatestCallerGetsTheResult(a: Args, c: Value)
    ensures var d := CallAll(New(100, None), [(0, a), (20, a), (60, [c])]);
      && d.timer == Some(Timer(160, [c]))
      && d.resolvers == [2] && d.superseded == {0, 1}
      && var r := Deliver(Fire(d, false), c);
      && r.invocations == [[c]]
      && r.delivered == map[2 := c]
  {
    var calls: seq<(int, Args)> := [(0, a), (20, a), (60, [c])];
    var d0 := New(100, None);
    CallsLeaveOneTimer(d0, calls);
    var d1 := Call(d0, 0, a).0;
    var d2 := Call(d1, 20, a).0;
    var d3 := Call(d2, 60, [c]).0;
    assert |calls[1..][1..][1..]| == 0;
    assert CallAll(d2, calls[1..][1..]) == CallAll(d3, calls[1..][1..][1..]) == d3;
    assert CallAll(d1, calls[1..]) == CallAll(d2, calls[1..][1..]);
    assert d3.superseded == {0, 1};
    var r := Deliver(Fire(d3, false), c);
    assert r.delivered.Keys == {2};
  }

  /** The second debounce test: without `onlyOne`, calls with `x` and `y` at the same instant run
      `func` once, with `y`, and both callers receive `y`. */
  lemma EveryCallerGetsTheResult(x: Args, y: Value)
    ensures var d := Call(Call(New(100, Some(false)), 0, x).0, 0, [y]).0;
      && d.resolvers == [0, 1]
      && var r := Deliver(Fire(d, false), y);
      && r.invocations == [[y]]
      && r.delivered == map[0 := y, 1 := y]
      && r.resolvers == []
  {
    var d := Call(Call(New(100, Some(false)), 0, x).0, 0, [y]).0;
    var r := Deliver(Fire(d, false), y);
    assert r.delivered.Keys == {0, 1};
  }
}

=== FILE: fifo.dfy ===
/** The single ordered backlog of `Queue` and `QueueParallel`: `push` at the tail, `shift` at the head. */
module Fifo {
  import opened Wrappers

  /** `queues.push(x)`: the new element goes to the tail, the others keep their places. */
  function Push<T>(q: seq<T>, x: T): (r: seq<T>)
    ensures |r| == |q| + 1
    ensures r[|q|] == x
    ensures forall i :: 0 <= i < |q| ==> r[i] == q[i]
  {
    q + [x]
  }

  /** `queues.shift()`: the head and what is left behind it, or nothing (`undefined`) when empty. */
  function Shift<T>(q: seq<T>): (r: Option<(T, seq<T>)>)
    ensures r.None? <==> |q| == 0
    ensures r.Some? ==> q == [r.value.0] + r.value.1
  {
    if |q| == 0 then None else Some((q[0], q[1..]))
  }

  /** Pushes every element of `xs`, in order. */
  function PushAll<T>(q: seq<T>, xs: seq<T>): seq<T>
    decreases |xs|
  {
    if |xs| == 0 then q else PushAll(Push(q, xs[0]), xs[1..])
  }

  /** The elements in the order repeated `Shift` hands them out. */
  function Drain<T>(q: seq<T>): seq<T>
    decreases |q|
  {
    match Shift(q)
    case None => []
    case Some((x, rest)) => [x] + Drain(rest)
  }

  /** Pushing a sequence of elements appends them after what is already queued. */
  lemma {:induction false} PushAllAppends<T>(q: seq<T>, xs: seq<T>)
    ensures PushAll(q, xs) == q + xs
    decreases |xs|
  {
    if |xs| > 0 {
      PushAllAppends(Push(q, xs[0]), xs[1..]);
      assert q + [xs[0]] + xs[1..] == q + xs;
    }
  }

  /** Repeated `Shift` hands the elements out in exactly their queued order. */
  lemma {:induction false} DrainKeepsOrder<T>(q: seq<T>)
    ensures Drain(q) == q
    decreases |q|
  {
    if |q| > 0 {
      DrainKeepsOrder(q[1..]);
    }
  }

  /** First in, first out: elements pushed onto an empty queue come back out in push order. */
  lemma FirstInFirstOut<T>(xs: seq<T>)
    ensures Drain(PushAll([], xs)) == xs
  {
    PushAllAppends([], xs);
    assert [] + xs == xs;
    DrainKeepsOrder(xs);
  }

  /** A push never overtakes: after pushing onto a non-empty queue, the head is unchanged
      and the pushed element stays behind the remaining ones. */
  lemma PushThenShift<T>(q: seq<T>, x: T)
    ensures |q| == 0 ==> Shift(Push(q, x)) == Some((x, []))
    ensures |q| > 0 ==> Shift(Push(q, x)) == Some((q[0], Push(q[1..], x)))
  {
    if |q| > 0 {
      assert (q + [x])[1..] == q[1..] + [x];
    }
  }
}

=== FILE: numbering.dfy ===
/** Consecutive identifiers, as the queues (entry ids) and `debounce` (callers) hand them out. */
module Numbering {
  /** The numbers `from`, `from + 1`, ..., `from + n - 1`. */
  function Consecutive(from: nat, n: nat): (r: seq<nat>)
    ensures |r| == n && forall i :: 0 <= i < n ==> r[i] == from + i
    decreases n
  {
    if n == 0 then [] else [from] + Consecutive(from + 1, n - 1)
  }

  /** Appending `from` and then the numbers after it is appending the numbers from `from` on. */
  lemma AppendConsecutive(q: seq<nat>, from: nat, n: nat)
    requires n > 0
    ensures q + [from] + Consecutive(from + 1, n - 1) == q + Consecutive(from, n)
  {
    assert Consecutive(from, n) == [from] + Consecutive(from + 1, n - 1);
  }
}

=== FILE: once_at_a_time.dfy ===
/** `onceAtATime(func, rejectOnce)`: a wrapper that lets only one invocation of `func` be in flight.
    A call made while one is in flight is rejected with `rejectOnce` and `func` is not called.
    `func`'s settlement is an explicit event. */
module OnceAtATime {
  import opened Wrappers
  import opened Outcomes

  /** The default `rejectOnce`. */
  const DefaultRejection := Error("Function is already running")

  /** The wrapper's closure, with what it did so far. */
  datatype Guard = Guard(
    rejectOnce: Reason,
    isRunning: bool,
    invocations: seq<Args>,            // calls of `func`, in order
    results: seq<Settlement>)          // how the admitted calls' promises settled, in order

  /** An argument that leaves a JavaScript default parameter in force: a missing one or an
      explicit `undefined`. */
  predicate TakesDefault(arg: Option<Reason>) {
    arg.None? || arg == Some(Thrown(Undefined))
  }

  /** `onceAtATime(func, rejectOnce?)`. */
  function New(rejectOnce: Option<Reason>): (g: Guard)
    ensures TakesDefault(rejectOnce) ==> g.rejectOnce == Error("Function is already running")
    ensures !TakesDefault(rejectOnce) ==> g.rejectOnce == rejectOnce.value
    ensures !g.isRunning && g.invocations == [] && g.results == []
  {
    Guard(if TakesDefault(rejectOnce) then DefaultRejection else rejectOnce.value, false, [], [])
  }

  /** What a call hands back at once: a promise already rejected, or one still pending on `func`. */
  datatype Reply = Refused(reason: Reason) | Pending

  /** One call of the wrapped function: refused while busy (nothing else changes), otherwise
      the guard turns busy and `func` is called with the arguments. */
  function Call(g: Guard, args: Args): (r: (Guard, Reply))
    ensures g.isRunning <==> r.1.Refused?
    ensures g.isRunning ==> r.0 == g && r.1.reason == g.rejectOnce
    ensures !g.isRunning ==> r.0.isRunning && r.0.invocations == g.invocations + [args]
    ensures r.0.rejectOnce == g.rejectOnce && r.0.results == g.results
  {
    if g.isRunning then (g, Refused(g.rejectOnce))
    else (g.(isRunning := true, invocations := g.invocations + [args]), Pending)
  }

  /** `func`'s promise settles (or `func` throws): the caller's promise settles the same way,
      unchanged, and the guard is free again whether it succeeded or failed. */
  function Finish(g: Guard, outcome: Settlement): (r: (Guard, Settlement))
    requires g.isRunning
    ensures r.1 == outcome
    ensures !r.0.isRunning && r.0.results == g.results + [outcome]
    ensures r.0.invocations == g.invocations && r.0.rejectOnce == g.rejectOnce
  {
    (g.(isRunning := false, results := g.results + [outcome]), outcome)
  }

  /** What the environment does to the wrapper. */
  datatype Event = CallWith(args: Args) | Settle(outcome: Settlement)

  /** Only a call in flight can settle. */
  predicate Enabled(g: Guard, e: Event) {
    e.Settle? ==> g.isRunning
  }

  function Step(g: Guard, e: Event): Guard
    requires Enabled(g, e)
  {
    match e
    case CallWith(args) => Call(g, args).0
    case Settle(outcome) => Finish(g, outcome).0
  }

  predicate Admissible(g: Guard, es: seq<Event>)
    decreases |es|
  {
    |es| == 0 || (Enabled(g, es[0]) && Admissible(Step(g, es[0]), es[1..]))
  }

  function Run(g: Guard, es: seq<Event>): (r: Guard)
    requires Admissible(g, es)
    ensures r.rejectOnce == g.rejectOnce
    decreases |es|
  {
    if |es| == 0 then g else Run(Step(g, es[0]), es[1..])
  }

  /** Every invocation of `func` has settled except the one in flight, if any: at most one
      invocation is ever outstanding. */
  predicate OneInFlight(g: Guard) {
    |g.invocations| == |g.results| + (if g.isRunning then 1 else 0)
  }

  /** The number of calls among `es`. */
  function CallCount(es: seq<Event>): nat
    decreases |es|
  {
    if |es| == 0 then 0 else (if es[0].CallWith? then 1 else 0) + CallCount(es[1..])
  }

  /** Whatever the callers do, at most one invocation is outstanding, and `func` runs no more often
      than the wrapper is called. */
  lemma {:induction false} RunKeepsOneInFlight(g: Guard, es: seq<Event>)
    requires Admissible(g, es) && OneInFlight(g)
    ensures OneInFlight(Run(g, es))
    ensures |Run(g, es).invocations| <= |g.invocations| + CallCount(es)
    decreases |es|
  {
    if |es| > 0 {
      RunKeepsOneInFlight(Step(g, es[0]), es[1..]);
    }
  }

  /** The first test: a second call while the first is in flight is rejected with the default
      error and does not call `func`; the first call's promise receives `func`'s result. */
  lemma SecondCallRejected(a: Args, b: Args, v: Value)
    ensures var (g1, r1) := Call(New(None), a);
      var (g2, r2) := Call(g1, b);
      && r1 == Pending
      && r2 == Refused(Error("Function is already running"))
      && g2.invocations == [a]
      && Finish(g2, Resolved(v)).1 == Resolved(v)
      && !Finish(g2, Resolved(v)).0.isRunning
  {
  }

  /** A failed invocation frees the guard too: the next call goes through. */
  lemma FailureFreesGuard(g: Guard, reason: Reason, args: Args)
    requires g.isRunning
    ensures Call(Finish(g, Rejected(reason)).0, args).1 == Pending
  {
  }

  /** The custom-rejection test: a busy guard refuses with the value it was given, unless that
      value is `undefined`, which leaves the default error in force. */
  lemma CustomRejection(reason: Reason, a: Args, b: Args)
    ensures reason != Thrown(Undefined) ==> Call(Call(New(Some(reason)), a).0, b).1 == Refused(reason)
    ensures reason == Thrown(Undefined) ==> Call(Call(New(Some(reason)), a).0, b).1 == Refused(DefaultRejection)
  {
  }
}

=== FILE: outcomes.dfy ===
/** The values that flow through tasks and wrapped functions, and how promises settle. */
module Outcomes {

  /** A JavaScript value handed to or returned by a task or a wrapped function,
      reduced to the kinds the library's own callers use. */
  datatype Value = Num(n: int) | Text(s: string) | Undefined

  /** Why a promise is rejected: an `Error` object with its message, or any other thrown value. */
  datatype Reason = Error(message: string) | Thrown(value: Value)

  /** The way one promise settles: resolved with a value or rejected with a reason. */
  datatype Settlement = Resolved(value: Value) | Rejected(reason: Reason)

  /** The argument list of one call of a wrapped function. */
  type Args = seq<Value>
}

=== FILE: priority.dfy ===
/** The three-level backlog of `QueuePriority`: one FIFO sequence per level,
    selected strictly high before normal before low. */
module Priority {
  import opened Wrappers
  import Fifo

  datatype Level = High | Normal | Low

  /** `validPriorities`, in declaration order. */
  const ValidPriorities: seq<string> := ["high", "normal", "low"]

  /** The name a caller passes for a level. */
  function Name(l: Level): string {
    match l
    case High => "high"
    case Normal => "normal"
    case Low => "low"
  }

  /** Position in the precedence order: a smaller rank is served first. */
  function Rank(l: Level): nat {
    match l
    case High => 0
    case Normal => 1
    case Low => 2
  }

  /** `validPriorities.includes(p)`, together with the level the name denotes. */
  function Parse(p: string): (r: Option<Level>)
    ensures r.Some? <==> p in ValidPriorities
    ensures r.Some? ==> Name(r.value) == p
  {
    if p == "high" then Some(High)
    else if p == "normal" then Some(Normal)
    else if p == "low" then Some(Low)
    else None
  }

  /** The three waiting sequences, keyed by level. */
  datatype Levels<T> = Levels(high: seq<T>, normal: seq<T>, low: seq<T>)

  function Empty<T>(): Levels<T> {
    Levels([], [], [])
  }

  /** `queues[l]`. */
  function Get<T>(q: Levels<T>, l: Level): seq<T> {
    match l
    case High => q.high
    case Normal => q.normal
    case Low => q.low
  }

  /** `queues[l]` replaced by `s`. */
  function Set<T>(q: Levels<T>, l: Level, s: seq<T>): (r: Levels<T>)
    ensures Get(r, l) == s
    ensures forall m :: m != l ==> Get(r, m) == Get(q, m)
  {
    match l
    case High => q.(high := s)
    case Normal => q.(normal := s)
    case Low => q.(low := s)
  }

  /** The order in which repeated selection hands out the waiting elements. */
  function Order<T>(q: Levels<T>): seq<T> {
    q.high + q.normal + q.low
  }

  /** `queues.high.length + queues.normal.length + queues.low.length`. */
  function Total<T>(q: Levels<T>): nat {
    |q.high| + |q.normal| + |q.low|
  }

  /** `queues[l].push(x)`: appended at the tail of its own level; the other levels are untouched. */
  function Push<T>(q: Levels<T>, l: Level, x: T): (r: Levels<T>)
    ensures Get(r, l) == Fifo.Push(Get(q, l), x)
    ensures forall m :: m != l ==> Get(r, m) == Get(q, m)
    ensures Total(r) == Total(q) + 1
  {
    Set(q, l, Fifo.Push(Get(q, l), x))
  }

  /** `_getQueue`: takes the head of the first non-empty level, or nothing when all are empty.
      Only the chosen level shrinks, and by its head alone. */
  function Take<T>(q: Levels<T>): (r: Option<(T, Levels<T>)>)
    ensures r.None? <==> Order(q) == []
    ensures r.Some? ==> Order(q) == [r.value.0] + Order(r.value.1)
    ensures r.Some? ==> forall l :: Get(r.value.1, l) == Get(q, l) || (Get(q, l) != [] && Get(r.value.1, l) == Get(q, l)[1..])
    ensures r.Some? ==> Total(r.value.1) + 1 == Total(q)
  {
    if |q.high| > 0 then Some((q.high[0], q.(high := q.high[1..])))
    else if |q.normal| > 0 then Some((q.normal[0], q.(normal := q.normal[1..])))
    else if |q.low| > 0 then Some((q.low[0], q.(low := q.low[1..])))
    else None
  }

  /** `queues[l].length = 0`: that level is emptied, the others keep their contents. */
  function ClearLevel<T>(q: Levels<T>, l: Level): (r: Levels<T>)
    ensures Get(r, l) == []
    ensures forall m :: m != l ==> Get(r, m) == Get(q, m)
    ensures Total(r) == Total(q) - |Get(q, l)|
  {
    Set(q, l, [])
  }

  /** Strict precedence: when `l` is the highest non-empty level, selection takes the head of `l`
      and leaves every other level as it was. */
  lemma TakeServesHighestLevel<T>(q: Levels<T>, l: Level)
    requires Get(q, l) != []
    requires forall m :: Rank(m) < Rank(l) ==> Get(q, m) == []
    ensures Take(q) == Some((Get(q, l)[0], Set(q, l, Get(q, l)[1..])))
  {
    assert Rank(High) < Rank(Normal) < Rank(Low);
  }

  /** The elements in the order repeated `Take` hands them out. */
  function Drain<T>(q: Levels<T>): seq<T>
    decreases Total(q)
  {
    match Take(q)
    case None => []
    case Some((x, rest)) => [x] + Drain(rest)
  }

  /** Repeated selection empties `high` first, then `normal`, then `low`, each in insertion order. */
  lemma {:induction false} DrainIsLevelOrder<T>(q: Levels<T>)
    ensures Drain(q) == q.high + q.normal + q.low
    decreases Total(q)
  {
    match Take(q)
    case None =>
    case Some((x, rest)) =>
      DrainIsLevelOrder(rest);
  }

  /** The order is kept within a level: pushing `x` onto level `l` places it after everything already
      waiting at `l` and at every higher level, and before everything waiting at lower levels. */
  lemma PushPlacesByLevel<T>(q: Levels<T>, l: Level, x: T)
    ensures Order(Push(q, l, x)) ==
            (if l == High then q.high + [x] + q.normal + q.low
             else if l == Normal then q.high + q.normal + [x] + q.low
             else q.high + q.normal + q.low + [x])
  {
  }
}

=== FILE: queue.dfy ===
/** `Queue`: the scheduler over one FIFO backlog, one task at a time. */
module Queue {
  import opened Wrappers
  import opened Outcomes
  import opened Scheduler
  import Fifo
  import opened Numbering

  /** A state whose backlog is the single FIFO sequence. */
  predicate IsQueue(s: State) {
    s.backlog.FifoBacklog?
  }

  /** `size()`: the entries still waiting; the running one was removed when it was selected.
      It is 0 exactly when `_getQueue` finds nothing. */
  function Size(s: State): (n: nat)
    requires IsQueue(s)
    ensures n == |Waiting(s.backlog)|
  {
    |s.backlog.entries|
  }

  /** `new Queue()`: an empty backlog, nothing running, one slot. */
  function New(): (s: State)
    ensures Unused(s) && Valid(s) && Ordered(s)
    ensures Size(s) == 0 && GetActiveCount(s) == 0 && s.concurrency == 1
  {
    Init(FifoBacklog([]))
  }

  /** A queue as a constructor leaves it, whatever its concurrency: nothing added, nothing run. */
  predicate Unused(s: State) {
    && IsQueue(s) && s.backlog.entries == [] && s.nextId == 0
    && s.activeCount == 0 && s.running == {} && s.started == [] && s.settled == map[] && s.discarded == {}
  }

  lemma UnusedIsValid(s: State)
    requires Unused(s)
    ensures Valid(s) && Ordered(s)
  {
  }

  /** `add(task)`: the new entry, with a fresh id, goes to the tail of the backlog, which otherwise
      keeps its order; one dispatch is scheduled; nothing runs or settles yet. */
  function Add(s: State): (r: (State, EntryId))
    requires IsQueue(s)
    ensures IsQueue(r.0) && r.1 == s.nextId
    ensures Size(r.0) == Size(s) + 1
    ensures r.0.backlog.entries == s.backlog.entries + [r.1]
    ensures r.0.running == s.running && r.0.activeCount == s.activeCount
    ensures r.0.started == s.started && r.0.settled == s.settled
    ensures r.0.timers == s.timers + 1 && r.0.nextId == s.nextId + 1
    ensures r.0.concurrency == s.concurrency && r.0.discarded == s.discarded && r.0.diagnostics == s.diagnostics
    ensures Valid(s) ==> Valid(r.0)
    ensures Ordered(s) ==> Ordered(r.0)
  {
    var id := s.nextId;
    var q := Fifo.Push(s.backlog.entries, id);
    assert q[..Size(s)] == s.backlog.entries;
    var r := Enqueue(s, FifoBacklog(q));
    OrderedAfterAdd(s, r);
    (r, id)
  }

  /** `clear()`: every waiting entry is discarded (its promise never settles); the running
      entries, `activeCount` and the settlements are untouched. */
  function Clear(s: State): (r: State)
    requires IsQueue(s)
    ensures IsQueue(r) && Size(r) == 0
    ensures r.running == s.running && r.activeCount == s.activeCount && r.settled == s.settled
    ensures r.started == s.started && r.concurrency == s.concurrency
    ensures r.timers == s.timers && r.nextId == s.nextId && r.diagnostics == s.diagnostics
    ensures r.discarded == s.discarded + Elems(s.backlog.entries)
    ensures Valid(s) ==> Valid(r)
    ensures Ordered(s) ==> Ordered(r)
  {
    assert s.backlog.entries == [] + s.backlog.entries;
    var r := Discard(s, FifoBacklog([]), s.backlog.entries);
    assert Log(r) == Log(s)[..|s.started|];
    r
  }

  /** The started entries followed by the waiting ones. */
  function Log(s: State): seq<EntryId>
    requires IsQueue(s)
  {
    s.started + s.backlog.entries
  }

  /** FIFO start order: ids are handed out in `add` order, and the entries started so far followed
      by the waiting ones form a strictly increasing sequence of ids below `nextId`. */
  predicate Ordered(s: State) {
    IsQueue(s) && Increasing(Log(s)) && Below(Log(s), s.nextId)
  }

  lemma OrderedAfterAdd(s: State, r: State)
    requires IsQueue(s) && IsQueue(r)
    requires r.backlog.entries == s.backlog.entries + [s.nextId] && r.started == s.started && r.nextId == s.nextId + 1
    ensures Ordered(s) ==> Ordered(r)
  {
    assert Log(r) == Log(s) + [s.nextId];
  }

  /** A dispatch pass moves entries from the head of the backlog to the end of the started log,
      so the log is unchanged. */
  lemma DispatchPassKeepsLog(s: State)
    requires IsQueue(s)
    ensures IsQueue(DispatchPass(s)) && Log(DispatchPass(s)) == Log(s)
  {
    var r := DispatchPass(s);
    var k := Min(|Waiting(s.backlog)|, Room(s));
    var w := s.backlog.entries;
    DispatchPassStarts(s);
    assert r.started == s.started + w[..k];
    assert r.backlog.entries == w[k..];
    SplitRejoin(s.started, w, k);
  }

  /** `size()` counts exactly the entries not yet selected: a dispatch pass lowers it by the
      number of entries it starts. */
  lemma SizeDropsBySelected(s: State)
    requires IsQueue(s) && s.timers > 0
    ensures IsQueue(Fire(s)) && Size(Fire(s)) + |Fire(s).started| == Size(s) + |s.started|
  {
    DispatchPassKeepsLog(s.(timers := s.timers - 1));
  }

  lemma FireOrdered(s: State)
    requires Ordered(s) && s.timers > 0
    ensures Ordered(Fire(s))
  {
    DispatchPassKeepsLog(s.(timers := s.timers - 1));
  }

  lemma CompleteOrdered(s: State, id: EntryId, outcome: Settlement)
    requires Ordered(s) && id in s.running
    ensures Ordered(Complete(s, id, outcome))
  {
    assert Log(Complete(s, id, outcome)) == Log(s);
  }

  /** The events a FIFO queue sees once timers and promises are made explicit. */
  datatype Event =
    | AddTask                                   // a producer calls `add`
    | ClearTasks                                // a producer calls `clear`
    | FireTimer                                 // a scheduled `_processQueue` callback runs
    | Settle(id: EntryId, outcome: Settlement)  // a running task returns or throws

  /** Whether the environment can deliver `e` now: only scheduled timers fire, only running tasks settle. */
  predicate Enabled(s: State, e: Event) {
    match e
    case FireTimer => s.timers > 0
    case Settle(id, _) => id in s.running
    case _ => true
  }

  function Step(s: State, e: Event): (r: State)
    requires IsQueue(s) && Enabled(s, e)
    ensures IsQueue(r)
  {
    match e
    case AddTask => Add(s).0
    case ClearTasks => Clear(s)
    case FireTimer => Fire(s)
    case Settle(id, outcome) => Complete(s, id, outcome)
  }

  /** Every event of `es` is enabled when it arrives. */
  predicate Admissible(s: State, es: seq<Event>)
    requires IsQueue(s)
    decreases |es|
  {
    |es| == 0 || (Enabled(s, es[0]) && Admissible(Step(s, es[0]), es[1..]))
  }

  function Run(s: State, es: seq<Event>): (r: State)
    requires IsQueue(s) && Admissible(s, es)
    ensures IsQueue(r)
    ensures r.concurrency == s.concurrency
    decreases |es|
  {
    if |es| == 0 then s else Run(Step(s, es[0]), es[1..])
  }

  /** Each event keeps both invariants. */
  lemma StepKeepsInvariants(s: State, e: Event)
    requires IsQueue(s) && Enabled(s, e) && Valid(s) && Ordered(s)
    ensures Valid(Step(s, e)) && Ordered(Step(s, e))
  {
    match e
    case AddTask =>
    case ClearTasks =>
    case FireTimer =>
      FireValid(s);
      FireOrdered(s);
    case Settle(id, outcome) =>
      CompleteSettlesOnce(s, id, outcome);
      CompleteOrdered(s, id, outcome);
  }

  /** Whatever the producers and tasks do, the invariants hold after every event: `activeCount`
      never exceeds `concurrency`, every entry is in exactly one place, and entries start in the
      order they were added. */
  lemma {:induction false} RunKeepsInvariants(s: State, es: seq<Event>)
    requires IsQueue(s) && Admissible(s, es) && Valid(s) && Ordered(s)
    ensures Valid(Run(s, es)) && Ordered(Run(s, es))
    decreases |es|
  {
    if |es| > 0 {
      StepKeepsInvariants(s, es[0]);
      RunKeepsInvariants(Step(s, es[0]), es[1..]);
    }
  }

  /** `n` consecutive `add` calls. */
  function AddMany(s: State, n: nat): (r: State)
    requires IsQueue(s)
    ensures IsQueue(r) && r.nextId == s.nextId + n && r.timers == s.timers + n
    ensures r.backlog.entries == s.backlog.entries + Consecutive(s.nextId, n)
    ensures r.activeCount == s.activeCount && r.concurrency == s.concurrency && r.started == s.started && r.settled == s.settled
    decreases n
  {
    if n == 0 then s
    else
      var t := Add(s).0;
      var r := AddMany(t, n - 1);
      AppendConsecutive(s.backlog.entries, s.nextId, n);
      r
  }

  /** Every `add` keeps the invariant, so `n` of them do. */
  lemma {:induction false} AddManyValid(s: State, n: nat)
    requires IsQueue(s) && Valid(s)
    ensures Valid(AddMany(s, n))
    decreases n
  {
    if n > 0 {
      AddManyValid(Add(s).0, n - 1);
    }
  }

  /** With one slot, tasks execute in submission order: `|outcomes|` calls of `add` on a queue as
      `New` leaves it, then the queue served dispatch by dispatch (each starts one task, which
      then settles), run entry 0, then 1, ..., then `|outcomes| - 1`; each promise receives its
      own task's outcome, and nothing is left waiting or running. */
  function AddThenServe(s0: State, outcomes: seq<Settlement>): (r: State)
    requires Unused(s0) && s0.concurrency == 1
    ensures IsQueue(r) && Size(r) == 0 && r.running == {}
    ensures |r.started| == |outcomes| && forall i :: 0 <= i < |outcomes| ==> r.started[i] == i
    ensures forall i :: 0 <= i < |outcomes| ==> i in r.settled && r.settled[i] == outcomes[i]
    ensures r.settled.Keys == Elems(r.started)
  {
    var s := AddMany(s0, |outcomes|);
    AddedToUnused(s0, |outcomes|);
    var r := ServeAll(s, outcomes);
    assert r.started == Consecutive(0, |outcomes|);
    EachGetsItsOwn(r.started, r.settled, outcomes);
    r
  }

  /** `n` calls of `add` on an unused queue wait as entries `0` to `n - 1`, with `n` dispatches
      scheduled and the invariant intact. */
  lemma AddedToUnused(s0: State, n: nat)
    requires Unused(s0)
    ensures var s := AddMany(s0, n);
      && Valid(s) && s.concurrency == s0.concurrency && s.activeCount == 0 && s.timers == s0.timers + n
      && s.started == [] && s.settled == map[] && Waiting(s.backlog) == Consecutive(0, n)
  {
    UnusedIsValid(s0);
    AddManyValid(s0, n);
  }

  lemma EachGetsItsOwn(started: seq<EntryId>, settled: map<EntryId, Settlement>, outcomes: seq<Settlement>)
    requires started == Consecutive(0, |outcomes|) && settled == Record(map[], Consecutive(0, |outcomes|), outcomes)
    ensures forall i :: 0 <= i < |outcomes| ==> started[i] == i
    ensures forall i :: 0 <= i < |outcomes| ==> i in settled && settled[i] == outcomes[i]
    ensures settled.Keys == Elems(started)
  {
    var n := |outcomes|;
    assert Distinct(Consecutive(0, n));
    RecordGivesEachItsOwn(map[], Consecutive(0, n), outcomes);
    forall i | 0 <= i < n ensures i in settled && settled[i] == outcomes[i] {
      assert Consecutive(0, n)[i] == i;
    }
  }
}

=== FILE: queue_parallel.dfy ===
/** `QueueParallel`: a FIFO `Queue` whose only difference is the number of slots. */
module QueueParallel {
  import opened Wrappers
  import opened Outcomes
  import opened Scheduler
  import Queue
  import Numbering

  /** The constructor's default argument. */
  const DefaultParallelism := 2

  /** `new QueueParallel(concurrency?)`: an empty FIFO queue with `concurrency` slots, 2 when the
      argument is left out. The value is taken as given: nothing rejects 0 or a negative count. */
  function New(concurrency: Option<int>): (s: State)
    ensures Queue.Unused(s) && Valid(s) && Queue.Ordered(s)
    ensures Queue.Size(s) == 0 && GetActiveCount(s) == 0
    ensures concurrency.None? ==> s.concurrency == 2
    ensures concurrency.Some? ==> s.concurrency == concurrency.value
  {
    Queue.New().(concurrency := concurrency.GetOr(DefaultParallelism))
  }

  /** The number of tasks running at once never exceeds the configured concurrency, whatever the
      producers and the tasks do (with a non-positive concurrency nothing runs at all). */
  lemma ConcurrencyBound(s: State, es: seq<Queue.Event>)
    requires Queue.Unused(s) && Queue.Admissible(s, es)
    ensures var r := Queue.Run(s, es);
      && GetActiveCount(r) == |r.running|
      && (|r.running| <= s.concurrency || r.running == {})
  {
    Queue.UnusedIsValid(s);
    Queue.RunKeepsInvariants(s, es);
  }

  /** `add`, selection, `clear` and `size` are `Queue`'s: entries start in the order they were
      added, each at most once, whatever the concurrency. */
  lemma StartsInAddOrder(s: State, es: seq<Queue.Event>)
    requires Queue.Unused(s) && Queue.Admissible(s, es)
    ensures var r := Queue.Run(s, es);
      forall i, j :: 0 <= i < j < |r.started| ==> r.started[i] < r.started[j]
  {
    Queue.UnusedIsValid(s);
    Queue.RunKeepsInvariants(s, es);
    var r := Queue.Run(s, es);
    assert Queue.Log(r)[..|r.started|] == r.started;
  }

  /** Tasks run in submission order on any number of slots: after `n` calls of `add` on a new
      queue with `concurrency >= 1`, served dispatch by dispatch (each one fills the free slots,
      and the tasks it starts then settle), the i-th added task is the i-th to start, the i-th
      promise receives the i-th task's outcome, exactly the started entries have settled, and
      nothing is left waiting or running. */
  function AddThenServeAll(concurrency: int, outcomes: seq<Settlement>): (r: State)
    requires concurrency >= 1
    ensures Queue.IsQueue(r) && Queue.Size(r) == 0 && GetActiveCount(r) == 0 && r.running == {}
    ensures r.concurrency == concurrency
    ensures |r.started| == |outcomes| && forall i :: 0 <= i < |outcomes| ==> r.started[i] == i
    ensures forall i :: 0 <= i < |outcomes| ==> i in r.settled && r.settled[i] == outcomes[i]
    ensures r.settled.Keys == Elems(r.started)
  {
    var s0 := New(Some(concurrency));
    var s := Queue.AddMany(s0, |outcomes|);
    Queue.AddedToUnused(s0, |outcomes|);
    var r := ServeAll(s, outcomes);
    assert r.started == Numbering.Consecutive(0, |outcomes|);
    Queue.EachGetsItsOwn(r.started, r.settled, outcomes);
    r
  }

  /** Nothing running and nothing ever started. */
  predicate Idle(s: State) {
    s.started == [] && s.running == {} && s.activeCount == 0
  }

  /** One event on a queue with no slots leaves it idle. */
  lemma NoSlotStepIdle(s: State, e: Queue.Event)
    requires Queue.IsQueue(s) && Queue.Enabled(s, e) && s.concurrency <= 0 && Idle(s)
    ensures Idle(Queue.Step(s, e)) && Queue.Step(s, e).concurrency == s.concurrency
  {
    match e
    case AddTask =>
    case ClearTasks =>
    case FireTimer =>
      DispatchPassRuns(s.(timers := s.timers - 1));
      DispatchPassStarts(s.(timers := s.timers - 1));
    case Settle(_, _) =>
  }

  /** With a concurrency of zero or less no task ever starts: every dispatch pass finds
      `_canRunProcess()` false. */
  lemma {:induction false} NoSlotsNothingStarts(s: State, es: seq<Queue.Event>)
    requires Queue.IsQueue(s) && s.concurrency <= 0 && Idle(s) && Queue.Admissible(s, es)
    ensures Idle(Queue.Run(s, es))
    decreases |es|
  {
    if |es| > 0 {
      NoSlotStepIdle(s, es[0]);
      NoSlotsNothingStarts(Queue.Step(s, es[0]), es[1..]);
    }
  }

  /** Three tasks on two slots, the way a producer and the event loop interleave them: the first
      dispatch starts tasks 0 and 1 together and leaves task 2 waiting, the later dispatches
      scheduled by `add` find no free slot, and the first settlement frees the slot task 2 runs in. */
  function ThreeOnTwoSlots(a: Settlement, b: Settlement, c: Settlement): (r: State)
    ensures Queue.IsQueue(r) && Queue.Size(r) == 0
    ensures r.started == [0, 1, 2]
    ensures r.settled == map[0 := a, 1 := b, 2 := c]
    ensures r.running == {} && GetActiveCount(r) == 0
  {
    var s := FirstSettles(New(None), a);
    var t := Fire(s);
    LastStarts(s);
    Complete(Complete(t, 1, b), 2, c)
  }

  /** Three `add` calls on a two-slot queue: all three wait, three dispatches are scheduled. */
  function ThreeAdded(s0: State): (s: State)
    requires Queue.IsQueue(s0) && s0.backlog.entries == [] && s0.nextId == 0 && s0.timers == 0
    requires s0.concurrency == 2 && s0.activeCount == 0 && s0.started == [] && s0.running == {} && s0.settled == map[]
    ensures Queue.IsQueue(s) && s.backlog.entries == [0, 1, 2] && s.timers == 3
    ensures s.concurrency == 2 && s.activeCount == 0 && s.started == [] && s.running == {} && s.settled == map[]
  {
    var s1 := Queue.Add(s0).0;
    var s2 := Queue.Add(s1).0;
    assert s2.backlog.entries == [0, 1];
    Queue.Add(s2).0
  }

  /** The three scheduled dispatches run (only the first finds free slots), then task 0 settles. */
  function FirstSettles(s0: State, a: Settlement): (s: State)
    requires Queue.IsQueue(s0) && s0.backlog.entries == [] && s0.nextId == 0 && s0.timers == 0
    requires s0.concurrency == 2 && s0.activeCount == 0 && s0.started == [] && s0.running == {} && s0.settled == map[]
    ensures Queue.IsQueue(s) && s.backlog.entries == [2] && s.timers == 1
    ensures s.concurrency == 2 && s.activeCount == 1 && s.started == [0, 1] && s.running == {1}
    ensures s.settled == map[0 := a]
  {
    var s3 := ThreeAdded(s0);
    TwoStart(s3);
    var s4 := Fire(s3);
    var s6 := Fire(Fire(s4));
    Complete(s6, 0, a)
  }

  /** The first dispatch fills both slots from the head of the backlog. */
  lemma TwoStart(s: State)
    requires Queue.IsQueue(s) && s.backlog.entries == [0, 1, 2] && s.timers == 3
    requires s.concurrency == 2 && s.activeCount == 0 && s.started == [] && s.running == {}
    ensures var t := Fire(s);
      && Queue.IsQueue(t) && t.started == [0, 1] && t.running == {0, 1} && t.activeCount == 2
      && t.backlog.entries == [2] && t.timers == 2 && t.concurrency == 2 && t.settled == s.settled
  {
    var u := s.(timers := 2);
    assert Room(u) == 2 && Waiting(u.backlog) == [0, 1, 2];
    DispatchPassRuns(u);
    DispatchPassStarts(u);
    assert [0, 1, 2][..2] == [0, 1] && [0, 1, 2][2..] == [2];
    assert Elems([0, 1]) == {0, 1};
  }

  /** Once one of the two slots is free again, the dispatch it scheduled starts the last task. */
  lemma LastStarts(s: State)
    requires Queue.IsQueue(s) && s.backlog.entries == [2] && s.timers == 1
    requires s.concurrency == 2 && s.activeCount == 1 && s.started == [0, 1] && s.running == {1}
    ensures var t := Fire(s);
      && Queue.IsQueue(t) && t.started == [0, 1, 2] && t.running == {1, 2} && t.activeCount == 2
      && t.backlog.entries == [] && t.settled == s.settled
  {
    DispatchPassRuns(s.(timers := 0));
    DispatchPassStarts(s.(timers := 0));
  }
}

=== FILE: queue_priority.dfy ===
/** `QueuePriority`: the scheduler over three FIFO levels, one task at a time. Selection serves
    `high` before `normal` before `low`; an unknown level name falls back to `normal`. */
module QueuePriority {
  import opened Wrappers
  import opened Outcomes
  import opened Scheduler
  import opened Priority

  /** A state whose backlog is the three-level record. */
  predicate IsPriority(s: State) {
    s.backlog.LevelBacklog?
  }

  /** The `queues` record. */
  function Queues(s: State): Levels<EntryId>
    requires IsPriority(s)
  {
    s.backlog.levels
  }

  /** `new QueuePriority()`: three empty levels, nothing running, one slot, nothing logged. */
  function New(): (s: State)
    ensures Fresh(s)
  {
    Init(LevelBacklog(Empty()))
  }

  /** A priority queue nobody has used yet. */
  ghost predicate Fresh(s: State) {
    && IsPriority(s) && Queues(s) == Empty() && Valid(s)
    && s.concurrency == 1 && s.activeCount == 0 && s.running == {} && s.started == [] && s.settled == map[]
    && s.discarded == {} && s.nextId == 0 && s.timers == 0 && s.diagnostics == []
  }

  /** The default argument of `add`. */
  const DefaultPriority := "normal"

  /** The start of the line `add` writes to `console.error` for an unknown level. */
  const InvalidPriorityPrefix := "Invalid priority: "

  /** The level `add(task, priority)` files the entry under, and what it writes to
      `console.error` on the way: a missing argument means `normal`; a name outside
      `validPriorities` also means `normal`, and is reported in exactly one line. */
  function Resolve(priority: Option<string>): (r: (Level, seq<string>))
    ensures priority.None? ==> r == (Normal, [])
    ensures priority.Some? && priority.value in ValidPriorities ==> Name(r.0) == priority.value && r.1 == []
    ensures priority.Some? && priority.value !in ValidPriorities ==>
              r.0 == Normal && r.1 == ["Invalid priority: " + priority.value]
  {
    var p := priority.GetOr(DefaultPriority);
    match Parse(p)
    case Some(l) => (l, [])
    case None => (Normal, [InvalidPriorityPrefix + p])
  }

  /** Whether `clear` and `size` treat their argument as a level (`if (priority)`): a missing
      argument and the empty string mean "all levels". */
  predicate Truthy(priority: Option<string>) {
    priority.Some? && priority.value != ""
  }

  /** `add(task, priority)`: the entry, with a fresh id, goes to the tail of its level; the other
      levels keep their contents; a dispatch is scheduled; an unknown level is reported. */
  function Add(s: State, priority: Option<string>): (r: (State, EntryId))
    requires IsPriority(s)
    ensures IsPriority(r.0) && r.1 == s.nextId && r.0.nextId == s.nextId + 1
    ensures var l := Resolve(priority).0;
      && Get(Queues(r.0), l) == Get(Queues(s), l) + [r.1]
      && forall m :: m != l ==> Get(Queues(r.0), m) == Get(Queues(s), m)
    ensures r.0.diagnostics == s.diagnostics + Resolve(priority).1
    ensures r.0.running == s.running && r.0.activeCount == s.activeCount && r.0.concurrency == s.concurrency
    ensures r.0.started == s.started && r.0.settled == s.settled && r.0.discarded == s.discarded
    ensures r.0.timers == s.timers + 1
    ensures Valid(s) ==> Valid(r.0)
  {
    var (l, lines) := Resolve(priority);
    var q := Push(Queues(s), l, s.nextId);
    PushAddsOne(Queues(s), l, s.nextId);
    var logged := s.(diagnostics := s.diagnostics + lines);
    LoggingKeepsValid(s, logged);
    (Enqueue(logged, LevelBacklog(q)), s.nextId)
  }

  /** Pushing onto any level adds exactly that one element to the selection order. */
  lemma PushAddsOne(q: Levels<EntryId>, l: Level, x: EntryId)
    ensures multiset(Order(Push(q, l, x))) == multiset(Order(q)) + multiset{x}
  {
    PushPlacesByLevel(q, l, x);
  }

  /** Writing to `console.error` does not touch the scheduler's bookkeeping. */
  lemma LoggingKeepsValid(s: State, t: State)
    requires t == s.(diagnostics := t.diagnostics)
    ensures Valid(s) ==> Valid(t)
  {
    forall x: EntryId ensures Copies(t, x) == Copies(s, x) {
    }
  }

  /** Removing one level's entries from the selection order. */
  lemma OrderWithout(q: Levels<EntryId>, l: Level)
    ensures multiset(Order(q)) == multiset(Order(ClearLevel(q, l))) + multiset(Get(q, l))
  {
  }

  /** `clear(priority)`: a level name empties that level alone; no argument (or the empty string)
      empties all three. The removed entries are discarded and their promises never settle;
      running entries, `activeCount` and settlements are untouched. `None` stands for a non-empty
      name that is not a level: the code then indexes a missing array and throws a `TypeError`, or,
      for a name the record inherits from `Object.prototype`, writes to that inherited property.
      Either way the three levels are left as they were. */
  function Clear(s: State, priority: Option<string>): (r: Option<State>)
    requires IsPriority(s)
    ensures r.None? <==> Truthy(priority) && priority.value !in ValidPriorities
    ensures r.Some? ==> IsPriority(r.value)
    ensures r.Some? && Truthy(priority) ==>
              var l := Parse(priority.value).value;
              && Get(Queues(r.value), l) == []
              && (forall m :: m != l ==> Get(Queues(r.value), m) == Get(Queues(s), m))
              && r.value.discarded == s.discarded + Elems(Get(Queues(s), l))
    ensures r.Some? && !Truthy(priority) ==>
              Queues(r.value) == Empty() && r.value.discarded == s.discarded + Elems(Order(Queues(s)))
    ensures r.Some? ==> r.value.running == s.running && r.value.activeCount == s.activeCount
    ensures r.Some? ==> r.value.started == s.started && r.value.settled == s.settled
    ensures r.Some? ==> r.value.nextId == s.nextId && r.value.timers == s.timers && r.value.concurrency == s.concurrency
    ensures r.Some? && Valid(s) ==> Valid(r.value)
  {
    var q := Queues(s);
    if Truthy(priority) then
      match Parse(priority.value)
      case None => None
      case Some(l) =>
        OrderWithout(q, l);
        Some(Discard(s, LevelBacklog(ClearLevel(q, l)), Get(q, l)))
    else
      assert Order(Empty<EntryId>()) == [];
      Some(Discard(s, LevelBacklog(Empty()), Order(q)))
  }

  /** `size(priority)`: a level name gives that level's length; no argument (or the empty string)
      gives the number of entries waiting on all levels. `None` stands for a non-empty name that is
      not a level: the code then throws a `TypeError`, or, for a name the record inherits from
      `Object.prototype`, reads that inherited property's `length`. */
  function Size(s: State, priority: Option<string>): (r: Option<nat>)
    requires IsPriority(s)
    ensures r.None? <==> Truthy(priority) && priority.value !in ValidPriorities
    ensures r.Some? && Truthy(priority) ==> r.value == |Get(Queues(s), Parse(priority.value).value)|
    ensures r.Some? && !Truthy(priority) ==> r.value == |Waiting(s.backlog)|
  {
    var q := Queues(s);
    if Truthy(priority) then
      match Parse(priority.value)
      case None => None
      case Some(l) => Some(|Get(q, l)|)
    else
      Some(|q.high| + |q.normal| + |q.low|)
  }

  /** `size()` is the sum of the three per-level sizes. */
  lemma SizeIsSumOfLevels(s: State)
    requires IsPriority(s)
    ensures Size(s, None).value == Size(s, Some("high")).value + Size(s, Some("normal")).value + Size(s, Some("low")).value
  {
  }

  /** `add(task, p)` with a level name raises `size(p)` and `size()` by one and leaves the other
      levels' sizes as they were. */
  lemma AddRaisesOwnSize(s: State, p: string, other: string)
    requires IsPriority(s) && p in ValidPriorities && other in ValidPriorities && other != p
    ensures var r := Add(s, Some(p)).0;
      && Size(r, Some(p)).value == Size(s, Some(p)).value + 1
      && Size(r, Some(other)).value == Size(s, Some(other)).value
      && Size(r, None).value == Size(s, None).value + 1
      && r.diagnostics == s.diagnostics
  {
    var l := Parse(p).value;
    var r := Add(s, Some(p)).0;
    assert Resolve(Some(p)) == (l, []);
    assert Parse(other).value != l;
    assert |Get(Queues(r), l)| == |Get(Queues(s), l)| + 1;
    SizeIsSumOfLevels(s);
    SizeIsSumOfLevels(r);
  }

  /** `clear(p)` with a level name leaves `size(p) = 0` and every other level's size unchanged;
      `clear()` leaves `size() = 0`. */
  lemma ClearEmptiesOnlyItsLevel(s: State, p: string, other: string)
    requires IsPriority(s) && p in ValidPriorities && other in ValidPriorities && other != p
    ensures Clear(s, Some(p)).Some? && Clear(s, None).Some?
    ensures Size(Clear(s, Some(p)).value, Some(p)) == Some(0)
    ensures Size(Clear(s, Some(p)).value, Some(other)) == Size(s, Some(other))
    ensures Size(Clear(s, None).value, None) == Some(0)
  {
    assert Parse(other).value != Parse(p).value;
  }

  /** `_getQueue` on the three levels: strictly high, then normal, then low, the head of the
      chosen level, which is the one that shrinks. */
  lemma SelectServesHighestLevel(s: State, l: Level)
    requires IsPriority(s) && Get(Queues(s), l) != []
    requires forall m :: Rank(m) < Rank(l) ==> Get(Queues(s), m) == []
    ensures Select(s.backlog) == Some((Get(Queues(s), l)[0], LevelBacklog(Set(Queues(s), l, Get(Queues(s), l)[1..]))))
  {
    TakeServesHighestLevel(Queues(s), l);
  }

  /** Within each level the waiting ids ascend, i.e. they wait in the order they were added, and
      each is an id already handed out. */
  predicate LevelsInOrder(s: State) {
    IsPriority(s) && forall l: Level :: Increasing(Get(Queues(s), l)) && Below(Get(Queues(s), l), s.nextId)
  }

  /** Selecting the head of a level keeps every level in order. */
  lemma TakeKeepsLevelsInOrder(q: Levels<EntryId>, bound: nat)
    requires forall l: Level :: Increasing(Get(q, l)) && Below(Get(q, l), bound)
    requires Take(q).Some?
    ensures forall l: Level :: Increasing(Get(Take(q).value.1, l)) && Below(Get(Take(q).value.1, l), bound)
  {
    var rest := Take(q).value.1;
    forall l: Level ensures Increasing(Get(rest, l)) && Below(Get(rest, l), bound) {
      var a := Get(q, l);
      if Get(rest, l) != a {
        assert Get(rest, l) == a[1..];
        assert forall i :: 0 <= i < |a| - 1 ==> a[1..][i] == a[i + 1];
      }
    }
  }

  /** A dispatch pass only removes heads of levels, so the levels stay in order. */
  lemma {:induction false} DispatchPassKeepsLevelsInOrder(s: State)
    requires LevelsInOrder(s)
    ensures LevelsInOrder(DispatchPass(s))
    decreases |Waiting(s.backlog)|
  {
    if CanRun(s) {
      match Select(s.backlog)
      case None =>
      case Some((id, rest)) =>
        TakeKeepsLevelsInOrder(Queues(s), s.nextId);
        assert rest == LevelBacklog(Take(Queues(s)).value.1);
        DispatchPassKeepsLevelsInOrder(Start(s.(backlog := rest), id));
    }
  }

  /** The events a priority queue sees once timers and promises are made explicit. */
  datatype Event =
    | AddTask(priority: Option<string>)         // a producer calls `add`
    | ClearTasks(priority: Option<string>)      // a producer calls `clear`
    | FireTimer                                 // a scheduled `_processQueue` callback runs
    | Settle(id: EntryId, outcome: Settlement)  // a running task returns or throws

  predicate Enabled(s: State, e: Event) {
    match e
    case FireTimer => s.timers > 0
    case Settle(id, _) => id in s.running
    case _ => true
  }

  /** One event. A `clear` that throws leaves the queue as it was. */
  function Step(s: State, e: Event): (r: State)
    requires IsPriority(s) && Enabled(s, e)
    ensures IsPriority(r)
  {
    match e
    case AddTask(p) => Add(s, p).0
    case ClearTasks(p) => Clear(s, p).GetOr(s)
    case FireTimer => Fire(s)
    case Settle(id, outcome) => Complete(s, id, outcome)
  }

  predicate Admissible(s: State, es: seq<Event>)
    requires IsPriority(s)
    decreases |es|
  {
    |es| == 0 || (Enabled(s, es[0]) && Admissible(Step(s, es[0]), es[1..]))
  }

  function Run(s: State, es: seq<Event>): (r: State)
    requires IsPriority(s) && Admissible(s, es)
    ensures IsPriority(r)
    decreases |es|
  {
    if |es| == 0 then s else Run(Step(s, es[0]), es[1..])
  }

  lemma AddKeepsLevelsInOrder(s: State, p: Option<string>)
    requires LevelsInOrder(s)
    ensures LevelsInOrder(Add(s, p).0)
  {
    var r := Add(s, p).0;
    forall l: Level ensures Increasing(Get(Queues(r), l)) && Below(Get(Queues(r), l), r.nextId) {
      var a := Get(Queues(s), l);
      assert Below(a, s.nextId);
    }
  }

  lemma ClearKeepsLevelsInOrder(s: State, p: Option<string>)
    requires LevelsInOrder(s)
    ensures LevelsInOrder(Clear(s, p).GetOr(s))
  {
  }

  lemma FireKeepsLevelsInOrder(s: State)
    requires LevelsInOrder(s) && s.timers > 0
    ensures LevelsInOrder(Fire(s))
  {
    var t := s.(timers := s.timers - 1);
    assert Queues(t) == Queues(s) && t.nextId == s.nextId;
    DispatchPassKeepsLevelsInOrder(t);
  }

  lemma CompleteKeepsLevelsInOrder(s: State, id: EntryId, outcome: Settlement)
    requires LevelsInOrder(s) && id in s.running
    ensures LevelsInOrder(Complete(s, id, outcome))
  {
    var r := Complete(s, id, outcome);
    assert r.backlog == s.backlog && r.nextId == s.nextId;
    assert Queues(r) == Queues(s);
  }

  /** Each event keeps the scheduler invariant and the order within levels. */
  lemma StepKeepsInvariants(s: State, e: Event)
    requires IsPriority(s) && Enabled(s, e) && Valid(s) && LevelsInOrder(s)
    ensures Valid(Step(s, e)) && LevelsInOrder(Step(s, e))
  {
    match e
    case AddTask(p) =>
      AddKeepsLevelsInOrder(s, p);
    case ClearTasks(p) =>
      ClearKeepsLevelsInOrder(s, p);
    case FireTimer =>
      FireValid(s);
      FireKeepsLevelsInOrder(s);
    case Settle(id, outcome) =>
      assert id in s.running;
      CompleteSettlesOnce(s, id, outcome);
      CompleteKeepsLevelsInOrder(s, id, outcome);
  }

  /** Whatever the producers and tasks do, `activeCount` stays within `concurrency`, every entry
      is in exactly one place, and within each level entries wait in the order they were added. */
  lemma {:induction false} RunKeepsInvariants(s: State, es: seq<Event>)
    requires IsPriority(s) && Admissible(s, es) && Valid(s) && LevelsInOrder(s)
    ensures Valid(Run(s, es)) && LevelsInOrder(Run(s, es))
    decreases |es|
  {
    if |es| > 0 {
      StepKeepsInvariants(s, es[0]);
      RunKeepsInvariants(Step(s, es[0]), es[1..]);
    }
  }

  /** The burst of the priority test: `low, low, high, normal, high` added before any dispatch
      runs. All five wait, in selection order 2, 4, 3, 0, 1. */
  function Burst(s: State): (r: State)
    requires Fresh(s)
    ensures IsPriority(r) && Valid(r) && r.concurrency == 1 && r.activeCount == 0 && r.timers == 5
    ensures r.started == [] && r.settled == map[] && r.diagnostics == []
    ensures Queues(r) == Levels([2, 4], [3], [0, 1]) && Waiting(r.backlog) == [2, 4, 3, 0, 1]
  {
    var s1 := Add(s, Some("low")).0;
    assert Queues(s1) == Levels([], [], [0]);
    var s2 := Add(s1, Some("low")).0;
    assert Queues(s2) == Levels([], [], [0, 1]);
    var s3 := Add(s2, Some("high")).0;
    assert Queues(s3) == Levels([2], [], [0, 1]);
    var s4 := Add(s3, Some("normal")).0;
    assert Queues(s4) == Levels([2], [3], [0, 1]);
    var s5 := Add(s4, Some("high")).0;
    assert Queues(s5) == Levels([2, 4], [3], [0, 1]);
    s5
  }

  /** Served one at a time, the burst runs the entries added third, fifth, fourth, first and
      second (tasks 3, 5, 4, 1, 2 of the test), and each promise receives its own task's outcome. */
  function BurstRunsByPriority(s: State, outcomes: seq<Settlement>): (r: State)
    requires Fresh(s) && |outcomes| == 5
    ensures r.started == [2, 4, 3, 0, 1]
    ensures r.settled == map[2 := outcomes[0], 4 := outcomes[1], 3 := outcomes[2], 0 := outcomes[3], 1 := outcomes[4]]
    ensures Waiting(r.backlog) == []
  {
    var b := Burst(s);
    ServeFive(b, outcomes);
    Serve(b, outcomes)
  }

  /** Serving five waiting entries one at a time, from a queue where nothing has run yet. */
  lemma ServeFive(b: State, outcomes: seq<Settlement>)
    requires Valid(b) && b.concurrency == 1 && b.activeCount == 0 && b.timers > 0
    requires IsPriority(b) && Queues(b) == Levels([2, 4], [3], [0, 1]) && b.started == [] && b.settled == map[]
    requires |outcomes| == 5
    ensures var r := Serve(b, outcomes);
      && r.started == [2, 4, 3, 0, 1]
      && r.settled == map[2 := outcomes[0], 4 := outcomes[1], 3 := outcomes[2], 0 := outcomes[3], 1 := outcomes[4]]
      && Waiting(r.backlog) == []
  {
    assert Waiting(b.backlog) == [2, 4, 3, 0, 1];
    assert Waiting(b.backlog)[..5] == [2, 4, 3, 0, 1];
    RecordFive(outcomes);
  }

  lemma RecordFive(outcomes: seq<Settlement>)
    requires |outcomes| == 5
    ensures Record(map[], [2, 4, 3, 0, 1], outcomes)
            == map[2 := outcomes[0], 4 := outcomes[1], 3 := outcomes[2], 0 := outcomes[3], 1 := outcomes[4]]
  {
    var ids: seq<EntryId> := [2, 4, 3, 0, 1];
    assert ids[1..] == [4, 3, 0, 1] && ids[1..][1..] == [3, 0, 1];
    assert ids[1..][1..][1..] == [0, 1] && ids[1..][1..][1..][1..] == [1];
  }

  /** The invalid-level test: `add(task, "urgent")` writes exactly `Invalid priority: urgent`,
      files the entry under `normal`, and the task still runs and its promise receives its result. */
  lemma InvalidPriorityFallsBackToNormal(s: State, outcome: Settlement)
    requires Fresh(s)
    ensures var r := Add(s, Some("urgent")).0;
      && r.diagnostics == ["Invalid priority: urgent"]
      && Queues(r) == Levels([], [0], [])
      && Turn(r, outcome).settled == map[0 := outcome]
  {
    assert "urgent" !in ValidPriorities;
    assert InvalidPriorityPrefix + "urgent" == "Invalid priority: urgent";
    var r := Add(s, Some("urgent")).0;
    assert Get(Queues(r), Normal) == [0] && Get(Queues(r), High) == [] && Get(Queues(r), Low) == [];
    assert Queues(r) == Levels([], [0], []);
    assert Waiting(r.backlog) == [0];
  }

  /** The `clear` and `size` tests: after adding to `high`, `low` and `normal`, `size()` is 3;
      `clear("low")` leaves 2 in all and 0 at `low`; `clear()` leaves 0. */
  lemma ClearAndSizeByLevel(s: State)
    requires IsPriority(s) && Queues(s) == Empty() && s.nextId == 0
    ensures var r := Add(Add(Add(s, Some("high")).0, Some("low")).0, Some("normal")).0;
      && Size(r, None) == Some(3)
      && Clear(r, Some("low")).Some? && Size(Clear(r, Some("low")).value, None) == Some(2)
      && Size(Clear(r, Some("low")).value, Some("low")) == Some(0)
      && Clear(r, None).Some? && Size(Clear(r, None).value, None) == Some(0)
  {
    var r := Add(Add(Add(s, Some("high")).0, Some("low")).0, Some("normal")).0;
    assert Queues(r) == Levels([0], [2], [1]);
    OneOnEachLevel(r);
  }

  /** The `size(priority)` test: after adding to `high`, `normal` and `normal`, `size("high")` is
      1, `size("normal")` 2, `size("low")` 0 and `size()` 3. */
  lemma SizePerLevel(s: State)
    requires IsPriority(s) && Queues(s) == Empty() && s.nextId == 0
    ensures var r := Add(Add(Add(s, Some("high")).0, Some("normal")).0, Some("normal")).0;
      && Size(r, Some("high")) == Some(1) && Size(r, Some("normal")) == Some(2)
      && Size(r, Some("low")) == Some(0) && Size(r, None) == Some(3)
  {
    var r := Add(Add(Add(s, Some("high")).0, Some("normal")).0, Some("normal")).0;
    assert Queues(r) == Levels([0], [1, 2], []);
  }

  lemma OneOnEachLevel(r: State)
    requires IsPriority(r) && Queues(r) == Levels([0], [2], [1])
    ensures Size(r, None) == Some(3)
    ensures Clear(r, Some("low")).Some? && Size(Clear(r, Some("low")).value, None) == Some(2)
    ensures Size(Clear(r, Some("low")).value, Some("low")) == Some(0)
    ensures Clear(r, None).Some? && Size(Clear(r, None).value, None) == Some(0)
  {
    assert Order(Queues(Clear(r, Some("low")).value)) == [0, 2];
  }
}

=== FILE: scheduler.dfy ===
/** The scheduling core every queue shares (`AQueue`): concurrency accounting, the dispatch pass
    and per-entry settlement. Timers and promises are replaced by explicit events:
    `Fire` is one deferred `_processQueue` callback running, `Complete` is a started task settling. */
module Scheduler {
  import opened Wrappers
  import opened Outcomes
  import Fifo
  import Priority

  /** One `add` call: the entry in the backlog and the promise handed back to its caller. */
  type EntryId = nat

  /** The backlog a concrete queue owns: one FIFO sequence (`Queue`, `QueueParallel`)
      or three priority levels (`QueuePriority`). */
  datatype Backlog =
    | FifoBacklog(entries: seq<EntryId>)
    | LevelBacklog(levels: Priority.Levels<EntryId>)

  /** The waiting entries in the order selection hands them out. */
  function Waiting(b: Backlog): seq<EntryId> {
    match b
    case FifoBacklog(q) => q
    case LevelBacklog(q) => Priority.Order(q)
  }

  /** `_getQueue`, as the concrete queue implements it: removes and returns the next entry
      in selection order, or nothing when the backlog is empty. */
  function Select(b: Backlog): (r: Option<(EntryId, Backlog)>)
    ensures r.None? <==> Waiting(b) == []
    ensures r.Some? ==> Waiting(b) == [r.value.0] + Waiting(r.value.1)
    ensures r.Some? ==> r.value.1.FifoBacklog? == b.FifoBacklog?
  {
    match b
    case FifoBacklog(q) =>
      (match Fifo.Shift(q)
       case None => None
       case Some((x, rest)) => Some((x, FifoBacklog(rest))))
    case LevelBacklog(q) =>
      (match Priority.Take(q)
       case None => None
       case Some((x, rest)) => Some((x, LevelBacklog(rest))))
  }

  /** The initial value of `concurrency`. */
  const DefaultConcurrency := 1

  datatype State = State(
    backlog: Backlog,
    concurrency: int,              // never validated: 0 or less lets nothing start
    activeCount: int,
    running: set<EntryId>,         // started, not yet settled
    started: seq<EntryId>,         // every start, in order
    settled: map<EntryId, Settlement>,
    discarded: set<EntryId>,       // dropped by `clear`; their promises never settle
    nextId: EntryId,               // the id the next `add` receives
    timers: nat,                   // `_processQueue` callbacks scheduled and not yet run
    diagnostics: seq<string>)      // lines written to `console.error`

  /** How many places entry `id` occupies: waiting (counted with multiplicity), running,
      settled or discarded. */
  function Copies(s: State, id: EntryId): nat {
    multiset(Waiting(s.backlog))[id]
    + (if id in s.running then 1 else 0)
    + (if id in s.settled then 1 else 0)
    + (if id in s.discarded then 1 else 0)
  }

  /** The scheduler's invariant: `activeCount` counts the running entries and stays within
      `concurrency`; every entry ever added is in exactly one of backlog, running, settled and
      discarded; and every running or settled entry was started exactly once. */
  ghost predicate Valid(s: State) {
    && s.activeCount == |s.running|
    && (s.activeCount <= s.concurrency || s.activeCount == 0)
    && (forall id: EntryId :: Copies(s, id) == (if id < s.nextId then 1 else 0))
    && (forall id: EntryId :: Starts(s, id) == (if id in s.running || id in s.settled then 1 else 0))
  }

  /** How many times entry `id` was started. */
  function Starts(s: State, id: EntryId): nat {
    multiset(s.started)[id]
  }

  /** The field initialisers of `AQueue` over a subtype's empty backlog. */
  function Init(backlog: Backlog): (s: State)
    requires Waiting(backlog) == []
    ensures s.activeCount == 0 && s.concurrency == DefaultConcurrency
    ensures s.running == {} && s.started == [] && s.settled == map[]
    ensures Valid(s)
  {
    State(backlog, DefaultConcurrency, 0, {}, [], map[], {}, 0, 0, [])
  }

  /** `getActiveCount()`: the number of entries executing right now. */
  function GetActiveCount(s: State): (n: int)
    ensures Valid(s) ==> n == |s.running|
    ensures Valid(s) ==> 0 <= n && (n <= s.concurrency || n == 0)
  {
    s.activeCount
  }

  /** `_canRunProcess()`: a slot is free, so that under the invariant fewer tasks run than
      `concurrency` allows. */
  function CanRun(s: State): (b: bool)
    ensures b <==> Room(s) > 0
    ensures Valid(s) ==> (b <==> |s.running| < s.concurrency)
  {
    s.activeCount < s.concurrency
  }

  /** The free slots: how many more entries may start before `_canRunProcess` turns false. */
  function Room(s: State): nat {
    if s.activeCount < s.concurrency then s.concurrency - s.activeCount else 0
  }

  /** `_canRunProcess()` holds exactly when a slot is free, and starting an entry uses one up. */
  lemma EligibleIffRoom(s: State, id: EntryId)
    ensures CanRun(s) <==> Room(s) > 0
    ensures CanRun(s) ==> Room(Start(s, id)) == Room(s) - 1
    ensures !CanRun(s) ==> s.activeCount >= s.concurrency
  {
  }

  function Min(a: int, b: int): int {
    if a <= b then a else b
  }

  /** The set of elements of a sequence. */
  function Elems(q: seq<EntryId>): set<EntryId> {
    set x | x in q
  }

  /** Strictly increasing. */
  predicate Increasing(q: seq<EntryId>) {
    forall i, j :: 0 <= i < j < |q| ==> q[i] < q[j]
  }

  /** Every id in `q` is below `bound`. */
  predicate Below(q: seq<EntryId>, bound: nat) {
    forall i :: 0 <= i < |q| ==> q[i] < bound
  }

  /** The synchronous part of `_runProcess`: the entry becomes active. It joins the running set
      and the end of the start log, so `activeCount` keeps pace with the log; the backlog (already
      popped by selection) and everything else stay as they were. */
  function Start(s: State, id: EntryId): (r: State)
    ensures r.running == s.running + {id} && r.started == s.started + [id]
    ensures r.activeCount - |r.started| == s.activeCount - |s.started|
    ensures r.backlog == s.backlog && r.concurrency == s.concurrency && r.settled == s.settled
    ensures r.discarded == s.discarded && r.nextId == s.nextId && r.timers == s.timers
    ensures r.diagnostics == s.diagnostics
  {
    s.(activeCount := s.activeCount + 1, running := s.running + {id}, started := s.started + [id])
  }

  /** The body of the deferred `_processQueue` callback: while `_canRunProcess()`, select an entry
      and start it, stopping early when selection finds nothing. It changes nothing but the backlog
      and the running entries; `DispatchPassStarts` says which entries it starts. */
  function DispatchPass(s: State): (r: State)
    decreases |Waiting(s.backlog)|
    ensures r.backlog.FifoBacklog? == s.backlog.FifoBacklog?
    ensures r.concurrency == s.concurrency && r.settled == s.settled && r.discarded == s.discarded
    ensures r.nextId == s.nextId && r.timers == s.timers && r.diagnostics == s.diagnostics
  {
    if !CanRun(s) then s
    else
      match Select(s.backlog)
      case None => s
      case Some((id, rest)) =>
        assert |Waiting(rest)| < |Waiting(s.backlog)|;
        DispatchPass(Start(s.(backlog := rest), id))
  }

  /** A dispatch pass starts exactly min(waiting, free slots) entries, the first ones in
      selection order, and `activeCount` grows by that many. */
  lemma {:induction false} DispatchPassStarts(s: State)
    decreases |Waiting(s.backlog)|
    ensures var r := DispatchPass(s);
      var k := Min(|Waiting(s.backlog)|, Room(s));
      && r.started == s.started + Waiting(s.backlog)[..k]
      && Waiting(r.backlog) == Waiting(s.backlog)[k..]
      && r.activeCount == s.activeCount + k
  {
    var w := Waiting(s.backlog);
    var k := Min(|w|, Room(s));
    if CanRun(s) {
      match Select(s.backlog)
      case None =>
      case Some((id, rest)) =>
        var s' := Start(s.(backlog := rest), id);
        assert s'.backlog == rest && Room(s') == Room(s) - 1;
        assert s'.started == s.started + [id];
        DispatchPassStarts(s');
        var r := DispatchPass(s');
        StepBookkeeping(s.started, w, s'.started, Waiting(rest), r.started, Waiting(r.backlog), k);
    } else {
      assert w[..k] == [] && w[k..] == w;
    }
  }

  /** The loop runs until `_canRunProcess()` fails or selection comes back empty: afterwards
      either no slot is free or nothing is waiting. */
  lemma DispatchPassStops(s: State)
    ensures var r := DispatchPass(s); !CanRun(r) || Waiting(r.backlog) == []
    ensures CanRun(s) && Waiting(s.backlog) != [] ==> |DispatchPass(s).started| > |s.started|
  {
    DispatchPassStarts(s);
  }

  /** The entries a dispatch pass starts are exactly the ones that join the running set. */
  lemma {:induction false} DispatchPassRuns(s: State)
    ensures DispatchPass(s).running == s.running + Elems(Waiting(s.backlog)[..Min(|Waiting(s.backlog)|, Room(s))])
    decreases |Waiting(s.backlog)|
  {
    var w := Waiting(s.backlog);
    var k := Min(|w|, Room(s));
    if CanRun(s) {
      match Select(s.backlog)
      case None =>
      case Some((id, rest)) =>
        var s' := Start(s.(backlog := rest), id);
        assert s'.backlog == rest && Room(s') == Room(s) - 1 && s'.running == s.running + {id};
        assert w == [id] + Waiting(rest) && Min(|Waiting(rest)|, Room(s')) == k - 1;
        DispatchPassRuns(s');
        ElemsOfPrefix(w, k);
    } else {
      assert w[..k] == [];
    }
  }

  /** The first `n` elements are the head and the first `n - 1` of the tail. */
  lemma ElemsOfPrefix(w: seq<EntryId>, n: int)
    requires 1 <= n <= |w|
    ensures Elems(w[..n]) == {w[0]} + Elems(w[1..][..n - 1])
  {
    assert w[..n] == [w[0]] + w[1..][..n - 1];
  }

  /** One scheduled `_processQueue` timer runs its dispatch pass. */
  function Fire(s: State): (r: State)
    requires s.timers > 0
    ensures r.timers == s.timers - 1
    ensures r.concurrency == s.concurrency && r.settled == s.settled && r.discarded == s.discarded
    ensures r.nextId == s.nextId && r.diagnostics == s.diagnostics
    ensures |r.started| >= |s.started| && r.started[..|s.started|] == s.started
    ensures r.activeCount - s.activeCount == |r.started| - |s.started|
  {
    var t := s.(timers := s.timers - 1);
    DispatchPassStarts(t);
    DispatchPass(t)
  }

  /** The `try`/`catch`/`finally` of `_runProcess`: the entry's promise settles with the task's
      outcome (resolved with its value, or rejected with its failure), `activeCount` drops and
      another dispatch is scheduled. */
  function Complete(s: State, id: EntryId, outcome: Settlement): (r: State)
    requires id in s.running
    ensures id in r.settled && r.settled[id] == outcome
    ensures forall x :: x in s.settled && x != id ==> x in r.settled && r.settled[x] == s.settled[x]
    ensures r.running == s.running - {id} && r.activeCount - |r.running| == s.activeCount - |s.running|
    ensures r.timers == s.timers + 1
    ensures r.backlog == s.backlog && r.started == s.started && r.concurrency == s.concurrency
    ensures r.discarded == s.discarded && r.nextId == s.nextId && r.diagnostics == s.diagnostics
  {
    s.(activeCount := s.activeCount - 1,
       running := s.running - {id},
       settled := s.settled[id := outcome],
       timers := s.timers + 1)
  }

  /** `_processQueue()` called from `add`: one more deferred dispatch is scheduled. */
  function Schedule(s: State): State {
    s.(timers := s.timers + 1)
  }

  /** Admission of a new entry: the subtype's backlog now also holds `nextId`, which is used up,
      and a dispatch is scheduled. */
  function Enqueue(s: State, backlog: Backlog): (r: State)
    requires multiset(Waiting(backlog)) == multiset(Waiting(s.backlog)) + multiset{s.nextId}
    ensures r.nextId == s.nextId + 1 && r.timers == s.timers + 1
    ensures Valid(s) ==> Valid(r)
  {
    var r := Schedule(s.(backlog := backlog, nextId := s.nextId + 1));
    assert forall id: EntryId :: Copies(r, id) == Copies(s, id) + (if id == s.nextId then 1 else 0);
    r
  }

  /** The entries waiting in the backlog are distinct. */
  lemma WaitingDistinct(s: State)
    requires Valid(s)
    ensures forall id: EntryId :: multiset(Waiting(s.backlog))[id] <= 1
  {
    forall id: EntryId ensures multiset(Waiting(s.backlog))[id] <= 1 {
      assert Copies(s, id) <= 1;
    }
  }

  /** `clear`: the entries in `dropped` leave the backlog without being started; they are
      discarded and will never settle. */
  function Discard(s: State, backlog: Backlog, dropped: seq<EntryId>): (r: State)
    requires multiset(Waiting(s.backlog)) == multiset(Waiting(backlog)) + multiset(dropped)
    ensures r.running == s.running && r.activeCount == s.activeCount && r.settled == s.settled
    ensures r.discarded == s.discarded + Elems(dropped)
    ensures r.started == s.started && r.nextId == s.nextId && r.timers == s.timers
    ensures Valid(s) ==> Valid(r)
  {
    var r := s.(backlog := backlog, discarded := s.discarded + Elems(dropped));
    DiscardKeepsCopies(s, r, dropped);
    r
  }

  lemma DiscardKeepsCopies(s: State, r: State, dropped: seq<EntryId>)
    requires multiset(Waiting(s.backlog)) == multiset(Waiting(r.backlog)) + multiset(dropped)
    requires r == s.(backlog := r.backlog, discarded := s.discarded + Elems(dropped))
    ensures Valid(s) ==> Valid(r)
  {
    if Valid(s) {
      forall id: EntryId ensures Copies(r, id) == Copies(s, id) {
        assert Copies(s, id) <= 1;
        if id in dropped {
          assert multiset(dropped)[id] >= 1;
        } else {
          assert multiset(dropped)[id] == 0;
        }
      }
    }
  }

  /** A start from a consistent state with a free slot keeps the invariant. */
  lemma StartValid(s: State, id: EntryId, rest: Backlog)
    requires Valid(s) && CanRun(s)
    requires Select(s.backlog) == Some((id, rest))
    ensures Valid(Start(s.(backlog := rest), id))
  {
    assert Waiting(s.backlog) == [id] + Waiting(rest);
    assert multiset(Waiting(s.backlog))[id] >= 1;
    assert Copies(s, id) >= 1;
    StartMovesEntry(s, id, rest);
    StartCountsOnce(s, id, rest);
  }

  /** A started entry leaves the backlog and joins the running set: every entry keeps its count. */
  lemma StartMovesEntry(s: State, id: EntryId, rest: Backlog)
    requires Waiting(s.backlog) == [id] + Waiting(rest) && id !in s.running
    ensures forall x: EntryId :: Copies(Start(s.(backlog := rest), id), x) == Copies(s, x)
  {
    assert multiset(Waiting(s.backlog)) == multiset{id} + multiset(Waiting(rest));
  }

  /** The start log gains exactly the entry that becomes running. */
  lemma StartCountsOnce(s: State, id: EntryId, rest: Backlog)
    requires forall x: EntryId :: Starts(s, x) == (if x in s.running || x in s.settled then 1 else 0)
    requires id !in s.running && id !in s.settled
    ensures var r := Start(s.(backlog := rest), id);
      forall x: EntryId :: Starts(r, x) == (if x in r.running || x in r.settled then 1 else 0)
  {
    var r := Start(s.(backlog := rest), id);
    assert multiset(r.started) == multiset(s.started) + multiset{id};
  }

  /** A dispatch pass keeps the invariant; in particular `activeCount <= concurrency` still holds. */
  lemma {:induction false} DispatchPassValid(s: State)
    requires Valid(s)
    ensures Valid(DispatchPass(s))
    decreases |Waiting(s.backlog)|
  {
    if CanRun(s) {
      match Select(s.backlog)
      case None =>
      case Some((id, rest)) =>
        StartValid(s, id, rest);
        DispatchPassValid(Start(s.(backlog := rest), id));
    }
  }

  /** Firing a scheduled dispatch keeps the invariant. */
  lemma FireValid(s: State)
    requires Valid(s) && s.timers > 0
    ensures Valid(Fire(s))
  {
    var t := s.(timers := s.timers - 1);
    forall x: EntryId ensures Copies(t, x) == Copies(s, x) {
    }
    DispatchPassValid(t);
  }

  /** A running entry settles exactly once: it had not settled before, afterwards it has settled
      with exactly the task's outcome, it is no longer running (so it cannot settle again), no other
      entry's settlement changes, and the invariant still holds. */
  lemma CompleteSettlesOnce(s: State, id: EntryId, outcome: Settlement)
    requires Valid(s) && id in s.running
    ensures id !in s.settled
    ensures var r := Complete(s, id, outcome);
      && Valid(r)
      && id !in r.running && id in r.settled && r.settled[id] == outcome
      && (forall x :: x in s.settled ==> x in r.settled && r.settled[x] == s.settled[x])
      && r.settled.Keys == s.settled.Keys + {id}
      && GetActiveCount(r) == GetActiveCount(s) - 1
      && r.timers == s.timers + 1
  {
    assert Copies(s, id) == 1;
    var r := Complete(s, id, outcome);
    assert |r.running| == |s.running| - 1;
    forall x: EntryId ensures Copies(r, x) == Copies(s, x) {
    }
  }

  /** A task's lifecycle is net zero for `activeCount`: starting raises it by one, settling
      lowers it by one. */
  lemma LifecycleNetZero(s: State, id: EntryId, rest: Backlog, outcome: Settlement)
    requires Valid(s) && CanRun(s)
    requires Select(s.backlog) == Some((id, rest))
    ensures GetActiveCount(Start(s.(backlog := rest), id)) == GetActiveCount(s) + 1
    ensures GetActiveCount(Complete(Start(s.(backlog := rest), id), id, outcome)) == GetActiveCount(s)
  {
    StartValid(s, id, rest);
    CompleteSettlesOnce(Start(s.(backlog := rest), id), id, outcome);
  }

  /** A failing task changes only its own settlement: completing with a rejection leaves exactly
      the state completing with any other outcome would, apart from that one promise. */
  lemma FailureIsolated(s: State, id: EntryId, reason: Reason, other: Settlement)
    requires id in s.running
    ensures Complete(s, id, Rejected(reason)).(settled := s.settled) == Complete(s, id, other).(settled := s.settled)
    ensures Complete(s, id, Rejected(reason)).settled - {id} == s.settled - {id}
  {
  }

  /** Settlement keeps the queue draining whatever the outcome: after a task settles (even with
      a failure), the dispatch it schedules starts the next waiting entry. */
  lemma SettlementRedispatches(s: State, id: EntryId, outcome: Settlement)
    requires id in s.running && s.activeCount <= s.concurrency && Waiting(s.backlog) != []
    ensures var r := Fire(Complete(s, id, outcome));
      && |r.started| > |s.started|
      && r.started[|s.started|] == Waiting(s.backlog)[0]
      && r.settled[id] == outcome
  {
    var c := Complete(s, id, outcome);
    var t := c.(timers := c.timers - 1);
    assert Room(t) >= 1;
    assert Waiting(t.backlog) == Waiting(s.backlog);
    var k := Min(|Waiting(t.backlog)|, Room(t));
    DispatchPassStarts(t);
    var r := DispatchPass(t);
    assert r.started == s.started + Waiting(s.backlog)[..k];
  }

  /** With one free slot and a non-empty backlog, a dispatch starts exactly the next entry. */
  lemma FireOneSlot(s: State)
    requires s.concurrency == 1 && s.activeCount == 0 && s.timers > 0 && Waiting(s.backlog) != []
    ensures var t := Fire(s);
      && t.started == s.started + [Waiting(s.backlog)[0]]
      && Waiting(t.backlog) == Waiting(s.backlog)[1..]
      && t.running == s.running + {Waiting(s.backlog)[0]}
      && t.activeCount == 1 && t.concurrency == 1 && t.timers == s.timers - 1 && t.settled == s.settled
      && t.backlog.FifoBacklog? == s.backlog.FifoBacklog?
  {
    var u := s.(timers := s.timers - 1);
    assert Min(|Waiting(u.backlog)|, Room(u)) == 1;
    DispatchPassRuns(u);
    DispatchPassStarts(u);
    assert Waiting(u.backlog)[..1] == [Waiting(s.backlog)[0]];
  }

  /** One turn of a queue with a single slot and nothing running: a scheduled dispatch starts the
      next entry in selection order, and that task then settles with `outcome`. */
  function Turn(s: State, outcome: Settlement): (r: State)
    requires Valid(s) && s.concurrency == 1 && s.activeCount == 0 && s.timers > 0
    requires Waiting(s.backlog) != []
    ensures Waiting(s.backlog)[0] !in s.settled
    ensures r.started == s.started + [Waiting(s.backlog)[0]]
    ensures Waiting(r.backlog) == Waiting(s.backlog)[1..]
    ensures r.settled == s.settled[Waiting(s.backlog)[0] := outcome]
    ensures Valid(r) && r.concurrency == 1 && r.activeCount == 0 && r.timers > 0
    ensures r.backlog.FifoBacklog? == s.backlog.FifoBacklog?
  {
    var id := Waiting(s.backlog)[0];
    assert Copies(s, id) >= 1;
    FireValid(s);
    FireOneSlot(s);
    var t := Fire(s);
    CompleteSettlesOnce(t, id, outcome);
    Complete(t, id, outcome)
  }

  /** Serving a single-slot queue turn by turn: the entries start one after another in exactly
      selection order, and each one's promise receives its own task's outcome. */
  function Serve(s: State, outcomes: seq<Settlement>): (r: State)
    requires Valid(s) && s.concurrency == 1 && s.activeCount == 0 && s.timers > 0
    requires |outcomes| <= |Waiting(s.backlog)|
    ensures Valid(r)
    ensures r.started == s.started + Waiting(s.backlog)[..|outcomes|]
    ensures Waiting(r.backlog) == Waiting(s.backlog)[|outcomes|..]
    ensures r.settled == Record(s.settled, Waiting(s.backlog)[..|outcomes|], outcomes)
    ensures r.backlog.FifoBacklog? == s.backlog.FifoBacklog?
    decreases |outcomes|
  {
    if |outcomes| == 0 then s
    else
      var t := Turn(s, outcomes[0]);
      var rest := outcomes[1..];
      assert |rest| == |outcomes| - 1;
      var r := Serve(t, rest);
      ServeStep(s, t, r, outcomes);
      r
  }

  /** Settling the running entries `ids`, one after another, with the outcomes `outs`: each
      leaves the running set, frees its slot and schedules one dispatch. */
  function SettleAll(s: State, ids: seq<EntryId>, outs: seq<Settlement>): (r: State)
    requires |ids| == |outs| && Distinct(ids) && Elems(ids) <= s.running
    ensures r.settled == Record(s.settled, ids, outs)
    ensures r.running == s.running - Elems(ids) && r.activeCount == s.activeCount - |ids|
    ensures r.timers == s.timers + |ids|
    ensures r.backlog == s.backlog && r.started == s.started && r.concurrency == s.concurrency
    decreases |ids|
  {
    if |ids| == 0 then s
    else
      DistinctTail(ids);
      SettleAll(Complete(s, ids[0], outs[0]), ids[1..], outs[1..])
  }

  lemma DistinctTail(ids: seq<EntryId>)
    requires |ids| > 0 && Distinct(ids)
    ensures Distinct(ids[1..]) && ids[0] !in Elems(ids[1..])
    ensures Elems(ids) == {ids[0]} + Elems(ids[1..])
  {
    assert ids == [ids[0]] + ids[1..];
  }

  /** Settling running entries one after another keeps the invariant. */
  lemma {:induction false} SettleAllValid(s: State, ids: seq<EntryId>, outs: seq<Settlement>)
    requires Valid(s) && |ids| == |outs| && Distinct(ids) && Elems(ids) <= s.running
    ensures Valid(SettleAll(s, ids, outs))
    decreases |ids|
  {
    if |ids| > 0 {
      DistinctTail(ids);
      CompleteSettlesOnce(s, ids[0], outs[0]);
      SettleAllValid(Complete(s, ids[0], outs[0]), ids[1..], outs[1..]);
    }
  }

  /** Recording two lists of settlements one after the other is recording their concatenation. */
  lemma {:induction false} RecordAppend(m: map<EntryId, Settlement>, a: seq<EntryId>, oa: seq<Settlement>,
                                        b: seq<EntryId>, ob: seq<Settlement>)
    requires |a| == |oa| && |b| == |ob|
    ensures Record(Record(m, a, oa), b, ob) == Record(m, a + b, oa + ob)
    decreases |a|
  {
    if |a| > 0 {
      RecordAppend(m[a[0] := oa[0]], a[1..], oa[1..], b, ob);
      assert (a + b)[1..] == a[1..] + b && (oa + ob)[1..] == oa[1..] + ob;
    } else {
      assert a + b == b && oa + ob == ob;
    }
  }

  /** On an idle queue with at least one slot, a scheduled dispatch fills up to `concurrency`
      slots with the first waiting entries, which are distinct and now the only running ones
      (`FireValid` says the invariant holds afterwards). */
  lemma RoundStarts(s: State)
    requires Valid(s) && s.concurrency >= 1 && s.activeCount == 0 && s.timers > 0
    ensures var w := Waiting(s.backlog);
      var k := Min(|w|, s.concurrency);
      var t := Fire(s);
      && t.started == s.started + w[..k] && Waiting(t.backlog) == w[k..]
      && t.running == Elems(w[..k]) && t.activeCount == k && Distinct(w[..k])
      && t.timers == s.timers - 1 && t.concurrency == s.concurrency && t.settled == s.settled
      && t.backlog.FifoBacklog? == s.backlog.FifoBacklog?
  {
    var u := s.(timers := s.timers - 1);
    var w := Waiting(s.backlog);
    var k := Min(|w|, s.concurrency);
    assert Room(u) == s.concurrency && Waiting(u.backlog) == w;
    DispatchPassStarts(u);
    DispatchPassRuns(u);
    assert s.running == {};
    PrefixDistinct(s, k);
  }

  /** Any prefix of the selection order of a valid state names distinct entries. */
  lemma PrefixDistinct(s: State, k: int)
    requires Valid(s) && 0 <= k <= |Waiting(s.backlog)|
    ensures Distinct(Waiting(s.backlog)[..k])
  {
    var w := Waiting(s.backlog);
    WaitingDistinct(s);
    CountsToDistinct(w);
    assert forall i, j :: 0 <= i < j < k ==> w[..k][i] == w[i] && w[..k][j] == w[j];
  }

  /** Cutting `w` at `k` and appending both parts to `a` gives `a + w`: what a dispatch moves to
      the start log plus what it leaves waiting is the old backlog. Kept as a lemma of its own:
      stated inline, this one sequence equality makes the solver's search in the proofs that use
      it (`Queue.DispatchPassKeepsLog`) erratic enough to run out of resources. */
  lemma SplitRejoin(a: seq<EntryId>, w: seq<EntryId>, k: int)
    requires 0 <= k <= |w|
    ensures (a + w[..k]) + w[k..] == a + w
  {
    assert w[..k] + w[k..] == w;
  }

  /** The sequence bookkeeping of one round of `ServeAll`. */
  lemma RoundBookkeeping(started: seq<EntryId>, m: map<EntryId, Settlement>, w: seq<EntryId>,
                         outcomes: seq<Settlement>, k: int)
    requires 0 <= k <= |w| == |outcomes|
    ensures (started + w[..k]) + w[k..] == started + w
    ensures Record(Record(m, w[..k], outcomes[..k]), w[k..], outcomes[k..]) == Record(m, w, outcomes)
  {
    RecordAppend(m, w[..k], outcomes[..k], w[k..], outcomes[k..]);
    SplitRejoin(started, w, k);
    assert w[..k] + w[k..] == w && outcomes[..k] + outcomes[k..] == outcomes;
  }

  /** Serving a queue with any number `concurrency >= 1` of slots round by round: each scheduled
      dispatch fills the free slots from the head of the selection order, and the tasks started
      then settle. In the end every waiting entry has started, in selection order, and each
      promise holds its own task's outcome; the queue is idle and the invariant holds. */
  function ServeAll(s: State, outcomes: seq<Settlement>): (r: State)
    requires Valid(s) && s.concurrency >= 1 && s.activeCount == 0
    requires s.timers > 0 || Waiting(s.backlog) == []
    requires |outcomes| == |Waiting(s.backlog)|
    ensures Valid(r) && r.activeCount == 0 && r.concurrency == s.concurrency
    ensures r.started == s.started + Waiting(s.backlog)
    ensures Waiting(r.backlog) == []
    ensures r.settled == Record(s.settled, Waiting(s.backlog), outcomes)
    ensures r.backlog.FifoBacklog? == s.backlog.FifoBacklog?
    decreases |outcomes|
  {
    if |outcomes| == 0 then s
    else
      var w := Waiting(s.backlog);
      var k := Min(|w|, s.concurrency);
      RoundStarts(s);
      FireValid(s);
      var t := Fire(s);
      SettleAllValid(t, w[..k], outcomes[..k]);
      var u := SettleAll(t, w[..k], outcomes[..k]);
      var r := ServeAll(u, outcomes[k..]);
      RoundBookkeeping(s.started, s.settled, w, outcomes, k);
      r
  }

  /** The bookkeeping of one step of `Serve`, apart from the invariant. */
  lemma ServeStep(s: State, t: State, r: State, outcomes: seq<Settlement>)
    requires 1 <= |outcomes| <= |Waiting(s.backlog)|
    requires t.started == s.started + [Waiting(s.backlog)[0]] && Waiting(t.backlog) == Waiting(s.backlog)[1..]
    requires t.settled == s.settled[Waiting(s.backlog)[0] := outcomes[0]]
    requires r.started == t.started + Waiting(t.backlog)[..|outcomes[1..]|]
    requires Waiting(r.backlog) == Waiting(t.backlog)[|outcomes[1..]|..]
    requires r.settled == Record(t.settled, Waiting(t.backlog)[..|outcomes[1..]|], outcomes[1..])
    ensures r.started == s.started + Waiting(s.backlog)[..|outcomes|]
    ensures Waiting(r.backlog) == Waiting(s.backlog)[|outcomes|..]
    ensures r.settled == Record(s.settled, Waiting(s.backlog)[..|outcomes|], outcomes)
  {
    StepBookkeeping(s.started, Waiting(s.backlog), t.started, Waiting(t.backlog), r.started, Waiting(r.backlog), |outcomes|);
  }

  /** The settlements `ids[i] := outs[i]`, made one after another on top of `m`. */
  function Record(m: map<EntryId, Settlement>, ids: seq<EntryId>, outs: seq<Settlement>): map<EntryId, Settlement>
    requires |ids| == |outs|
    decreases |ids|
  {
    if |ids| == 0 then m else Record(m[ids[0] := outs[0]], ids[1..], outs[1..])
  }

  /** No entry occurs twice. */
  predicate Distinct(q: seq<EntryId>) {
    forall i, j :: 0 <= i < j < |q| ==> q[i] != q[j]
  }

  /** Recording the settlements of distinct entries gives each one its own outcome and keeps
      every earlier settlement of another entry. */
  lemma {:induction false} RecordGivesEachItsOwn(m: map<EntryId, Settlement>, ids: seq<EntryId>, outs: seq<Settlement>)
    requires |ids| == |outs| && Distinct(ids)
    ensures forall i :: 0 <= i < |ids| ==> ids[i] in Record(m, ids, outs) && Record(m, ids, outs)[ids[i]] == outs[i]
    ensures forall x :: x in m && x !in ids ==> x in Record(m, ids, outs) && Record(m, ids, outs)[x] == m[x]
    ensures Record(m, ids, outs).Keys == m.Keys + Elems(ids)
    decreases |ids|
  {
    if |ids| > 0 {
      RecordGivesEachItsOwn(m[ids[0] := outs[0]], ids[1..], outs[1..]);
      var r := Record(m, ids, outs);
      forall i | 0 <= i < |ids| ensures ids[i] in r && r[ids[i]] == outs[i] {
        if i > 0 {
          assert ids[i] == ids[1..][i - 1];
        } else {
          assert ids[0] !in ids[1..];
        }
      }
      assert Elems(ids) == {ids[0]} + Elems(ids[1..]);
    }
  }

  /** Entries that occur at most once in a sequence occur at distinct positions. */
  lemma CountsToDistinct(q: seq<EntryId>)
    requires forall id: EntryId :: multiset(q)[id] <= 1
    ensures Distinct(q)
  {
    forall i, j | 0 <= i < j < |q| ensures q[i] != q[j] {
      assert q == q[..j] + q[j..];
      assert multiset(q) == multiset(q[..j]) + multiset(q[j..]);
      assert q[i] in q[..j] && q[j] in q[j..];
      assert multiset(q[..j])[q[i]] >= 1 && multiset(q[j..])[q[j]] >= 1;
      assert multiset(q)[q[i]] == multiset(q[..j])[q[i]] + multiset(q[j..])[q[i]];
    }
  }

  /** The sequence bookkeeping of one recursive step: starting the head of `w`, then `n - 1`
      entries of what is left, starts the first `n` entries of `w`. */
  lemma StepBookkeeping(started: seq<EntryId>, w: seq<EntryId>, started1: seq<EntryId>, w1: seq<EntryId>,
                        started2: seq<EntryId>, w2: seq<EntryId>, n: int)
    requires 1 <= n <= |w|
    requires started1 == started + [w[0]] && w1 == w[1..]
    requires started2 == started1 + w1[..n - 1] && w2 == w1[n - 1..]
    ensures started2 == started + w[..n]
    ensures w2 == w[n..]
    ensures w[..n][0] == w[0] && w[..n][1..] == w1[..n - 1]
    ensures Elems(w[..n]) == {w[0]} + Elems(w1[..n - 1])
  {
    assert w[..n] == [w[0]] + w1[..n - 1];
  }
}

=== FILE: throttle.dfy ===
/** `throttle(func, limit)`: a wrapper that lets a call through only when at least `limit`
    milliseconds have passed since the last call it let through. The clock (`Date.now()`) is an
    explicit input; whether `func` throws is an input too. */
module Throttle {
  import opened Wrappers
  import opened Outcomes

  /** The first argument of the `console.error` line written when `func` throws. */
  const ErrorLabel := "Throttled function error:"

  /** One call that went through: the time it was made and its arguments. */
  datatype Execution = Execution(time: int, args: Args)

  /** The wrapper's closure: `limit`, `lastCall`, and what it did so far. */
  datatype Throttler = Throttler(
    limit: int,
    lastCall: int,                      // starts at 0, not at the creation time
    executions: seq<Execution>,         // calls of `func`, in order
    errors: seq<(string, Reason)>)      // lines written to `console.error`

  function New(limit: int): (t: Throttler)
    ensures t.limit == limit && t.lastCall == 0 && t.executions == [] && t.errors == []
    ensures Consistent(t)
  {
    Throttler(limit, 0, [], [])
  }

  /** Whether a call at time `now` goes through. Since `lastCall` starts at 0, before any execution
      this compares `now` with `limit` itself; afterwards it compares with the latest execution. */
  function Admits(t: Throttler, now: int): (b: bool)
    ensures Consistent(t) && t.executions == [] ==> (b <==> now >= t.limit)
    ensures Consistent(t) && t.executions != [] ==> (b <==> now >= t.executions[|t.executions| - 1].time + t.limit)
  {
    now - t.lastCall >= t.limit
  }

  /** One call of the wrapped function at time `now`. A call that goes through moves `lastCall` to
      `now` and calls `func`; if `func` throws, the failure is logged and swallowed. A call that
      does not go through changes nothing at all. */
  function Call(t: Throttler, now: int, args: Args, thrown: Option<Reason>): (r: Throttler)
    ensures r.limit == t.limit
    ensures Admits(t, now) ==> r.lastCall == now && r.executions == t.executions + [Execution(now, args)]
    ensures Admits(t, now) && thrown.Some? ==> r.errors == t.errors + [(ErrorLabel, thrown.value)]
    ensures Admits(t, now) && thrown.None? ==> r.errors == t.errors
    ensures !Admits(t, now) ==> r == t
  {
    if now - t.lastCall >= t.limit then
      var logged := match thrown
        case Some(e) => t.errors + [(ErrorLabel, e)]
        case None => t.errors;
      t.(lastCall := now, executions := t.executions + [Execution(now, args)], errors := logged)
    else
      t
  }

  /** One call of the wrapped function: when it was made, with what, and whether `func` throws. */
  datatype Attempt = Attempt(now: int, args: Args, thrown: Option<Reason>)

  /** The calls, one after another. */
  function CallAll(t: Throttler, calls: seq<Attempt>): (r: Throttler)
    ensures r.limit == t.limit
    decreases |calls|
  {
    if |calls| == 0 then t
    else CallAll(Call(t, calls[0].now, calls[0].args, calls[0].thrown), calls[1..])
  }

  /** Consecutive executions are at least `limit` apart. */
  predicate Spaced(es: seq<Execution>, limit: int) {
    forall i :: 0 < i < |es| ==> es[i].time - es[i - 1].time >= limit
  }

  /** What the closure keeps: `lastCall` is the time of the latest execution (0 before the first),
      the first execution came at least `limit` after time 0, and executions are spaced. */
  predicate Consistent(t: Throttler) {
    && (t.executions == [] ==> t.lastCall == 0)
    && (t.executions != [] ==> t.lastCall == t.executions[|t.executions| - 1].time && t.executions[0].time >= t.limit)
    && Spaced(t.executions, t.limit)
    && |t.errors| <= |t.executions|
  }

  lemma CallKeepsConsistent(t: Throttler, now: int, args: Args, thrown: Option<Reason>)
    requires Consistent(t)
    ensures Consistent(Call(t, now, args, thrown))
  {
  }

  /** Whatever the clock and `func` do, the executions stay at least `limit` apart, `lastCall` is
      the latest one's time, and only executions produce error lines. */
  lemma {:induction false} CallAllKeepsConsistent(t: Throttler, calls: seq<Attempt>)
    requires Consistent(t)
    ensures Consistent(CallAll(t, calls))
    decreases |calls|
  {
    if |calls| > 0 {
      CallKeepsConsistent(t, calls[0].now, calls[0].args, calls[0].thrown);
      CallAllKeepsConsistent(Call(t, calls[0].now, calls[0].args, calls[0].thrown), calls[1..]);
    }
  }

  /** Spaced executions spread out: the last is at least `(n - 1) * limit` after the first. */
  lemma {:induction false} SpacedSpan(es: seq<Execution>, limit: int)
    requires |es| > 0 && Spaced(es, limit)
    ensures es[|es| - 1].time - es[0].time >= (|es| - 1) * limit
    decreases |es|
  {
    if |es| > 1 {
      var front := es[..|es| - 1];
      assert Spaced(front, limit) by {
        forall i | 0 < i < |front| ensures front[i].time - front[i - 1].time >= limit {
          assert front[i] == es[i] && front[i - 1] == es[i - 1];
        }
      }
      SpacedSpan(front, limit);
      assert front[|front| - 1] == es[|es| - 2];
    }
  }

  /** Any consecutive executions are spaced too. */
  lemma SpacedSlice(es: seq<Execution>, limit: int, i: int, j: int)
    requires 0 <= i <= j <= |es| && Spaced(es, limit)
    ensures Spaced(es[i..j], limit)
  {
    var sl := es[i..j];
    forall k | 0 < k < |sl| ensures sl[k].time - sl[k - 1].time >= limit {
      assert sl[k] == es[i + k] && sl[k - 1] == es[i + k - 1];
    }
  }

  /** No more than one call per interval: in any wrapper (every run from `New` is one, by
      `CallAllKeepsConsistent`), executions `i` to `j - 1` that lie within `d` milliseconds of
      each other number at most `d / limit + 1` for a positive `limit`. */
  lemma AtMostOnePerInterval(t: Throttler, i: int, j: int, d: int)
    requires Consistent(t) && t.limit > 0
    requires 0 <= i < j <= |t.executions| && t.executions[j - 1].time - t.executions[i].time <= d
    ensures j - i <= d / t.limit + 1
  {
    var sl := t.executions[i..j];
    SpacedSlice(t.executions, t.limit, i, j);
    SpacedSpan(sl, t.limit);
    assert sl[0] == t.executions[i] && sl[|sl| - 1] == t.executions[j - 1];
    DivBound(j - i - 1, t.limit, d);
  }

  lemma DivBound(k: int, limit: int, d: int)
    requires limit > 0 && k >= 0 && k * limit <= d
    ensures k <= d / limit
  {
    var q := d / limit;
    assert d == q * limit + d % limit && d % limit < limit;
    assert (k - q) * limit == k * limit - q * limit;
    BelowOneFactor(k - q, limit);
  }

  lemma BelowOneFactor(x: int, y: int)
    requires y > 0 && x * y < y
    ensures x < 1
  {
  }

  /** The throttle test: with `limit = 100`, calls with `a` and `b` at the same instant and one
      with `c` 100 ms later execute `func` twice, with `a` and then `c`. */
  lemma TwoOfThreeGoThrough(now: int, a: Args, b: Args, c: Args)
    requires now >= 100
    ensures var t := CallAll(New(100), [Attempt(now, a, None), Attempt(now, b, None), Attempt(now + 100, c, None)]);
      t.executions == [Execution(now, a), Execution(now + 100, c)]
  {
    var calls := [Attempt(now, a, None), Attempt(now, b, None), Attempt(now + 100, c, None)];
    var t1 := Call(New(100), now, a, None);
    var t2 := Call(t1, now, b, None);
    var t3 := Call(t2, now + 100, c, None);
    assert calls[1..][1..][1..] == [];
    assert CallAll(t2, calls[1..][1..]) == CallAll(t3, []) == t3;
    assert CallAll(t1, calls[1..]) == CallAll(t2, calls[1..][1..]);
  }

  /** The error test: a call whose `func` throws does not fail; the failure is logged once with
      its label, and `lastCall` still moves. */
  lemma ThrowIsLoggedAndSwallowed(limit: int, now: int, args: Args, e: Reason)
    requires now >= limit
    ensures var t := Call(New(limit), now, args, Some(e));
      t.errors == [(ErrorLabel, e)] && t.executions == [Execution(now, args)] && t.lastCall == now
  {
  }
}

=== FILE: wrappers.dfy ===
/** Optional values: the `undefined` a selection returns on an empty backlog,
    and arguments a caller may leave out. */
module Wrappers {

  datatype Option<+T> = None | Some(value: T) {

    /** The value, or `default` when there is none (a JavaScript default parameter). */
    function GetOr(default: T): T {
      match this
      case Some(v) => v
      case None => default
    }
  }
}
